=== FILE: README.md ===
# Developers and projects API — a Dafny model

The system is a small Express/Postgres CRUD service for developers, their
profile information ("infos"), projects, and the technologies attached to
projects. Each request handler projects its JSON body onto an allow-list of
keys (`filterData`), sends one or a few SQL statements, and translates the
database's outcome into an HTTP status. Routes with an `:id` parameter first
run an existence guard (`developerExists` or `projectExists`).

This project replaces the database with an in-memory store and models every
handler as a pure function from (store, route id, body) to (status, body,
store after the request).

- `wrappers.dfy` — `Option` and `Result`.
- `payload.dfy` — a JSON body as an ordered JavaScript object: values are
  `undefined`, `null`, strings, numbers or booleans, with `Truthy` as in
  JavaScript. `Put` is property assignment and `Spread` is `{...a, ...b}`.
- `validations.dfy` — `filterData`, written as its own map-then-reduce and
  proved equal to a projection onto the allow-list. Also the partial-update
  rule, which deletes every falsy property before the UPDATE.
- `store.dfy` — the five tables as maps from id to row, each with a serial
  counter that starts at 1. Text columns store the text pg-format's `%L` writes for a value:
  a number as its decimal numeral, a boolean as `t` or `f`. The UNIQUE email
  check therefore compares text. The statements the handlers issue are modelled with the
  constraints they rely on, checked in Postgres's order:
  - the literal is parsed first (enum `os_types`, integer ids);
  - then NOT NULL;
  - then the UNIQUE email;
  - then the foreign keys.
  The second statement of `createInfos`, which points the developer at the
  new infos row with both values passed as parameters, is
  `SetDeveloperInfos`. An UPDATE with an empty SET list is its own error. It stands for the SQL
  syntax error the handlers catch.
- `responses.dfy` — the reply: status, JSON body, store after the request.
- `developers.dfy`, `projects.dfy` — the handlers and their properties.
- `middlewares.dfy` — the two existence guards.
- `app.ts`'s wiring is in `app.dfy`: each guarded route is the guard
  followed by the handler.

The source's quirks are kept:
- `updateInfos` updates the infos row whose id is the route id.
- `removeTechnology` ignores the project id.
- `createTechnology` answers with the project's first joined row.
- `createTechnology` reports a missing project as "Developer not found.".
- The unsupported-technology 404 advertises "JavaScript", which the
  accept-list itself refuses because it spells the name "Javascript".

All functions are pure, so no handler can modify the request body it is given.

## Model

| member | source | states |
|---|---|---|
| Validations.FilterData | src/logic/validations.ts:7-23 | the result's keys are exactly the allow-list, including keys the payload lacks; each key carries the payload's value (undefined when missing); no other key appears; with distinct keys they appear in allow-list order |
| Validations.FilterDataShape | src/logic/validations.ts:11-20 | with distinct keys, the i-th property of the result is the i-th allow-listed key with the payload's value for it |
| Validations.FilterDataOnlyReadsAllowList | src/logic/validations.ts:11-13 | two payloads that agree on the allow-listed keys filter to the same object |
| Validations.FilterDataIdempotent | src/logic/validations.ts:7-23 | filtering an already filtered payload with the same keys changes nothing |
| Payload.Truthy | src/logic/developers.logic.ts:215 | `!v` is false exactly for values outside the falsy set undefined, null, "", 0, false |
| Validations.DropFalsy | src/logic/developers.logic.ts:214-218 | keeps exactly the properties with truthy values: the result is a subsequence of the input, as long as the count of truthy properties, holding only truthy ones; with distinct keys each key then reads as its truthy value or undefined |
| Validations.DropFalsyUnique | src/logic/developers.logic.ts:214-218 | any order-keeping selection of all the truthy properties equals the result, so the kept properties stay in the input's order |
| Validations.UpdateFields | src/logic/developers.logic.ts:211-218 | after the falsy properties are deleted, the SET list holds exactly the allow-listed keys with truthy values, each with the payload's value; it is empty exactly when no allow-listed value is truthy |
| Validations.UpdateFieldsReflects | src/logic/projects.logic.ts:245-251 | for each allow-listed key, it is in the SET list iff its value is truthy, and the list then holds the payload's value |
| Store.IdLiteral | src/logic/projects.logic.ts:33-39 | an integer column accepts NULL and numbers within -2147483648..2147483647, reading a number as itself; anything else is an error |
| Store.Text | src/logic/developers.logic.ts:23-27 | the `%L` literal of a value: null and undefined stay NULL, every other value becomes text, and a number's text reads back as the number |
| Developers.Create | src/logic/developers.logic.ts:13-46 | a developer_infos_id that is present, not null and not a number, or whose numeral is outside the 4-byte integer range, gives 500; a missing name or email gives 400 "Required keys: name and email."; an email whose text a developer already has gives 409 "Email already exists."; a developer_infos_id naming no infos row gives 500 with the foreign-key error; a 201 happens exactly when none applies; the 201 body is the new row, name and email as text, under a fresh id, and only that row is added; every failure leaves the store unchanged |
| Developers.NumericEmailConflicts | src/logic/developers.logic.ts:39-41 | the number 5 as an email conflicts with a stored "5", on POST |
| Developers.NumericEmailConflictsOnUpdate | src/logic/developers.logic.ts:242-245 | on PATCH, the number 5 as another developer's email conflicts with a stored "5" |
| Developers.CreateKeepsEmailsUnique | src/logic/developers.logic.ts:18-41 | creating a developer keeps every developer email distinct |
| Developers.CreateIgnoresOtherKeys | src/logic/developers.logic.ts:18-27 | keys other than name, email and developer_infos_id never influence the reply or the store |
| Developers.CreateTwiceConflicts | src/logic/developers.logic.ts:29-41 | posting the same developer again after a 201 gives 409 with the store unchanged |
| Developers.CreateThenRead | src/logic/developers.logic.ts:178-197 | a created developer reads back under the reported id with the posted name and email |
| Developers.CreateInfos | src/logic/developers.logic.ts:49-99 | the reply is 201, 400, 409 or 500; every failure leaves the store unchanged; a well-formed store stays well-formed |
| Developers.CreateInfosRejects | src/logic/developers.logic.ts:83-94 | a preferred_os outside Windows/Linux/MacOS gives 409 "Allowed values for preferred_os: Windows, Linux, MacOS"; otherwise a missing developer_since or preferred_os gives 400 "Required keys: developer_since and preferred_os"; both with the store unchanged |
| Developers.CreateInfosSucceeds | src/logic/developers.logic.ts:55-82 | a 201 happens exactly when preferred_os is one of the labels and both fields are present |
| Developers.CreateInfosWrites | src/logic/developers.logic.ts:60-66 | on a 201 the body is the new infos row, under a fresh id, holding the posted developer_since and preferred_os, and the infos table gains exactly that row |
| Developers.CreateInfosLinks | src/logic/developers.logic.ts:68-80 | on a 201 the route's developer, when one exists, now points at the new infos row, and projects, technologies and their links are unchanged |
| Developers.CreateInfosKeepsEmailsUnique | src/logic/developers.logic.ts:68-80 | pointing a developer at new infos keeps every developer email distinct |
| Developers.CreateInfosTwiceOrphans | src/logic/developers.logic.ts:60-80 | posting infos again keeps the old infos row in the store and points the developer at the new one |
| Developers.CreateInfosThenRemove | src/logic/developers.logic.ts:315-353 | deleting a developer right after giving it infos gives 204, removes the developer and the new infos row, and leaves the infos table as it was before |
| Developers.Update | src/logic/developers.logic.ts:206-251 | only name and email with truthy values are written, as text, other stored fields are untouched; no truthy field gives 400; an email whose text another developer has gives 409 with the store unchanged; a missing row gives 200 with an empty body |
| Developers.UpdateKeepsEmailsUnique | src/logic/developers.logic.ts:206-246 | patching a developer keeps every developer email distinct |
| Developers.UpdateInfos | src/logic/developers.logic.ts:254-305 | the reply is 200, 400 or 409; anything but 200 leaves the store unchanged; developers and projects never change |
| Developers.UpdateInfosNeedsAField | src/logic/developers.logic.ts:259-294 | no truthy developer_since or preferred_os gives 400 "Required keys: developer_since or preferred_os." with the store unchanged |
| Developers.UpdateInfosRejectsUnknownOs | src/logic/developers.logic.ts:296-302 | a truthy preferred_os outside the enum gives 409 with the store unchanged |
| Developers.UpdateInfosKeysOnRouteId | src/logic/developers.logic.ts:274-288 | the infos row whose id is the route id gets the truthy fields, whatever row the developer points at; no row gives 200 with an empty body |
| Developers.Remove | src/logic/developers.logic.ts:308-358 | the developer is deleted, and when its developer_infos_id is set, exactly that infos row too; nothing else changes; 204. A missing developer gives 500 with the store unchanged |
| Developers.ReadDeveloper | src/logic/developers.logic.ts:178-202 | at most one row comes back: the developer with the route id and its infos columns (null when it has none), or an empty body |
| Projects.Create | src/logic/projects.logic.ts:14-58 | a developer_id that is present, not null and not a number, or whose numeral is outside the 4-byte integer range, gives 500; otherwise a missing required value gives 400; a developer_id naming no developer gives 404 "Developer not found."; otherwise 201 with the row built from the seven project keys, the text columns as text, under a fresh id; failures change nothing |
| Projects.InsertFiltered | src/logic/projects.logic.ts:19-38 | the insert's outcome depends only on the seven project keys of the payload |
| Projects.CreateTechnology | src/logic/projects.logic.ts:61-149 | a name outside the nine-name accept-list gives 400 with nothing written; a technology row that is not seeded gives 500; a missing project gives 404 "Developer not found."; on 201 exactly one association (route id, the technology's id, today) is added and the body is the project's first joined row |
| Projects.CreateTechnologyReportsFirstRow | src/logic/projects.logic.ts:116-138 | the 201 body names the new technology only when the project had no association before; otherwise it is the project's earlier first row |
| Projects.Update | src/logic/projects.logic.ts:231-281 | the reply is 200, 400 or 500; anything but 200 leaves the store unchanged; developers and associations never change |
| Projects.UpdateNeedsAField | src/logic/projects.logic.ts:245-276 | no truthy value among the seven project keys gives 400 with the store unchanged |
| Projects.UpdateWritesTruthyFields | src/logic/projects.logic.ts:245-269 | exactly the truthy project values overwrite the row with the route id, as text in the text columns; a truthy developer_id that is not an integer in range, or names no developer, gives 500 with the store unchanged; a missing row gives 200 with an empty body |
| Projects.Remove | src/logic/projects.logic.ts:284-306 | the project with the route id is deleted, nothing else changes, the serial counter included, 204 |
| Projects.RemoveTechnology | src/logic/projects.logic.ts:308-392 | a name outside the accept-list gives 404 with the advertised options; no association of an existing project with that technology name gives 404; otherwise exactly the lowest-id such association, on any project, is deleted, 204 |
| Projects.RemoveTechnologyIgnoresProjectId | src/logic/projects.logic.ts:313-385 | the reply and the store do not depend on the route's project id |
| Projects.RemoveTechnologyCrossesProjects | src/logic/projects.logic.ts:345-385 | a removal addressed to one project deletes another project's association |
| Projects.AddThenRemoveTechnology | src/logic/projects.logic.ts:61-393 | after a 201 from adding a technology, removing that name gives 204; it removes the new association, restoring the associations, exactly when no older association had the name, and otherwise removes the lowest-id older one and keeps the new one |
| Projects.AdvertisedJavaScriptIsRefused | src/logic/projects.logic.ts:316-343 | "JavaScript" is among the advertised options, yet both association handlers refuse it |
| Middlewares.DeveloperExists | src/middlewares/index.ts:6-24 | a route id outside the 4-byte integer range makes the uncaught query fail, so no reply is sent; otherwise it passes on exactly when a developer has the route id, and answers 404 "Developer not found." when none has |
| Middlewares.ProjectExists | src/middlewares/index.ts:26-44 | a route id outside the 4-byte integer range makes the uncaught query fail, so no reply is sent; otherwise it passes on exactly when a project has the route id, and answers 404 "Project not found." when none has |
| App.Handle | src/app.ts:10-25 | no reply is sent exactly when a route with an id gets one outside the integer range; on a guarded route whose id has no row the guard answers 404 and the store is unchanged; every reply leaves a well-formed store well formed |
| App.HandleKeepsEmailsUnique | src/app.ts:10-25 | from a well-formed store with distinct developer emails, every route that replies leaves the emails distinct |
| App.DeleteDeveloperNeverFails | src/app.ts:17 | behind the guard, deleting a developer is unanswered exactly when the id is out of the integer range; a reply is 204 when the developer exists and 404 otherwise |
| App.PostTechnologyBehindGuard | src/app.ts:20 | behind the guard, a reply to adding a technology is 404 exactly when the project is missing |
| App.DeletedDeveloperIsGone | src/app.ts:11-17 | after a delete that is answered, every route guarded on its id answers 404 |
| App.DeletedProjectIsGone | src/app.ts:20-25 | after a delete that is answered, every route guarded on its id answers 404 |

## Left out

- `read`, `readProjects` and `readProjectsDeveloper` — read-only join queries; only `readDeveloper` is modelled, as "at most one row".
- The database connection, `pg` client and `pg-format` SQL text — replaced by store operations that check the constraints the handlers depend on.
- Error-message substring matching — replaced by an error datatype. Messages of generic 500 replies are kept as the error value, not as text.
- `new Date().toLocaleDateString()` — the date is a `today` parameter. `console.log` is dropped.
- `Number(request.params.id)` for non-numeric or fractional ids (NaN, 1.5) — route ids are integers. In the source such an id makes the guard's query fail just as an out-of-range id does.
- Handlers called on their own take any integer route id. In the app the guard has already stopped ids outside the integer range, which would make the handlers' own queries fail.
- The serial counters are unbounded; a Postgres `serial` sequence stops at 2147483647.
- What the process does after a guard's query fails (an unhandled promise rejection) — the model only says no reply is sent.
- JSON objects and arrays as field values — a value is undefined, null, a string, a number or a boolean.
- Postgres coercion of text to integers and dates — a string or boolean in an integer column is an `InvalidInteger` error. Date columns keep the JSON value as given; date parsing is not modelled.
- Store.Decimal: integers of magnitude 2^53 or more are written exactly in plain decimal. JavaScript holds them only as the nearest double and prints that (2^60 as 1152921504606847000), and from 10^21 on in exponent notation.
- The database schema is not part of this model. No delete checks foreign keys or applies ON DELETE actions. Deleting a developer who owns projects, or a project with associations, succeeds in the model.
- A failed insert does not advance the table's serial counter, unlike a Postgres sequence.
- The order of rows from an unordered SELECT is taken to be ascending id.
- Numbers are integers; floating point is not modelled.
- Concurrency and non-atomic multi-statement handlers — each request is one sequential transition.
- Developers.UpdateInfos: the function's own contract states only the status set and the frame. The full outcome is stated by UpdateInfosNeedsAField, UpdateInfosRejectsUnknownOs and UpdateInfosKeysOnRouteId.
- Developers.CreateInfos: the function's own contract states only the status set, the frame and well-formedness. The full outcome is stated by CreateInfosRejects, CreateInfosSucceeds, CreateInfosWrites and CreateInfosLinks.
- Projects.Update: the function's own contract states only the status set and the frame. The full outcome is stated by UpdateNeedsAField and UpdateWritesTruthyFields.

=== FILE: app.dfy ===
/**
 * The routes that write, or read one developer, each wired as its guard
 * followed by its handler.
 */
module App {
  import opened Wrappers
  import opened Payload
  import opened Store
  import opened Responses
  import opened Middlewares
  import Developers
  import Projects

  /** One request: the route with its id parameter and body. */
  datatype Request =
    | PostDeveloper(payload: Obj)
    | PostDeveloperInfos(id: int, payload: Obj)
    | GetDeveloper(id: int)
    | PatchDeveloper(id: int, payload: Obj)
    | PatchDeveloperInfos(id: int, payload: Obj)
    | DeleteDeveloper(id: int)
    | PostProject(payload: Obj)
    | PostProjectTechnology(id: int, payload: Obj)
    | PatchProject(id: int, payload: Obj)
    | DeleteProject(id: int)
    | DeleteProjectTechnology(id: int, name: string)

  /** Routes guarded by `developerExists`. */
  predicate OnDeveloper(req: Request)
  {
    req.PostDeveloperInfos? || req.GetDeveloper? || req.PatchDeveloper?
    || req.PatchDeveloperInfos? || req.DeleteDeveloper?
  }

  /** Routes guarded by `projectExists`. */
  predicate OnProject(req: Request)
  {
    req.PostProjectTechnology? || req.PatchProject? || req.DeleteProject? || req.DeleteProjectTechnology?
  }

  function Guard(db: Db, req: Request): Verdict
  {
    if OnDeveloper(req) then DeveloperExists(db, req.id)
    else if OnProject(req) then ProjectExists(db, req.id)
    else Continue
  }

  function Dispatch(db: Db, req: Request, today: string): Reply
  {
    match req
    case PostDeveloper(payload) => Developers.Create(db, payload)
    case PostDeveloperInfos(id, payload) => Developers.CreateInfos(db, id, payload)
    case GetDeveloper(id) => Developers.ReadDeveloper(db, id)
    case PatchDeveloper(id, payload) => Developers.Update(db, id, payload)
    case PatchDeveloperInfos(id, payload) => Developers.UpdateInfos(db, id, payload)
    case DeleteDeveloper(id) => Developers.Remove(db, id)
    case PostProject(payload) => Projects.Create(db, payload)
    case PostProjectTechnology(id, payload) => Projects.CreateTechnology(db, id, payload, today)
    case PatchProject(id, payload) => Projects.Update(db, id, payload)
    case DeleteProject(id) => Projects.Remove(db, id)
    case DeleteProjectTechnology(id, name) => Projects.RemoveTechnology(db, id, name)
  }

  /** The route's id parameter, on the routes that have one. */
  predicate HasId(req: Request)
  {
    OnDeveloper(req) || OnProject(req)
  }

  /** One request through the app: the reply, or None when none is sent. A
      guard that halts answers with the store untouched and the handler never
      runs; a guard that fails leaves the request unanswered, having written
      nothing; otherwise the handler answers. Every route keeps the store
      well formed. */
  function Handle(db: Db, req: Request, today: string): (r: Option<Reply>)
    ensures r.None? <==> HasId(req) && !IsInteger(req.id)
    ensures OnDeveloper(req) && IsInteger(req.id) && req.id !in db.developers.rows ==>
      r == Some(Reply(404, Message(DeveloperMissing), db))
    ensures OnProject(req) && IsInteger(req.id) && req.id !in db.projects.rows ==>
      r == Some(Reply(404, Message(ProjectMissing), db))
    ensures r.Some? && Wf(db) ==> Wf(r.value.db)
  {
    match Guard(db, req)
    case Unanswered => None
    case Halt(status, body) => Some(Reply(status, body, db))
    case Continue => Some(Dispatch(db, req, today))
  }

  /** Once the guard has checked the developer, DELETE /developers/:id can no
      longer hit the handler's 500 for a missing developer. */
  lemma DeleteDeveloperNeverFails(db: Db, id: int, today: string)
    ensures Handle(db, DeleteDeveloper(id), today).None? <==> !IsInteger(id)
    ensures var r := Handle(db, DeleteDeveloper(id), today);
      r.Some? ==> r.value.status in {204, 404}
    ensures var r := Handle(db, DeleteDeveloper(id), today);
      r.Some? ==> (id in db.developers.rows <==> r.value.status == 204)
  {
  }

  /** Behind the guard, POST /projects/:id/technologies never gives the
      handler's 404 "Developer not found.": the project exists by then. */
  lemma PostTechnologyBehindGuard(db: Db, id: int, payload: Obj, today: string)
    ensures var r := Handle(db, PostProjectTechnology(id, payload), today);
      r.Some? ==> (r.value.status == 404 <==> id !in db.projects.rows)
  {
  }

  /** After a developer is deleted, every route guarded on that id answers 404. */
  lemma DeletedDeveloperIsGone(db: Db, id: int, req: Request, today: string)
    requires OnDeveloper(req) && req.id == id
    ensures var r := Handle(db, DeleteDeveloper(id), today);
      r.Some? ==> Handle(r.value.db, req, today) == Some(Reply(404, Message(DeveloperMissing), r.value.db))
  {
    var r := Handle(db, DeleteDeveloper(id), today);
    if IsInteger(id) && id in db.developers.rows {
      assert r == Some(Developers.Remove(db, id));
      assert id !in r.value.db.developers.rows;
    }
  }

  /** After a project is deleted, every route guarded on that id answers 404. */
  lemma DeletedProjectIsGone(db: Db, id: int, req: Request, today: string)
    requires OnProject(req) && req.id == id
    ensures var r := Handle(db, DeleteProject(id), today);
      r.Some? ==> Handle(r.value.db, req, today) == Some(Reply(404, Message(ProjectMissing), r.value.db))
  {
    var r := Handle(db, DeleteProject(id), today);
    if IsInteger(id) && id in db.projects.rows {
      assert r == Some(Projects.Remove(db, id));
      assert id !in r.value.db.projects.rows;
    }
  }

  /** No route lets two developers share an email: the UNIQUE constraint
      holds of every store the routes produce from a well-formed one. */
  lemma HandleKeepsEmailsUnique(db: Db, req: Request, today: string)
    requires Wf(db) && UniqueEmails(db.developers.rows)
    ensures var r := Handle(db, req, today);
      r.Some? ==> UniqueEmails(r.value.db.developers.rows)
  {
    var rows := db.developers.rows;
    if Guard(db, req).Continue? {
      var r := Dispatch(db, req, today);
      assert Handle(db, req, today) == Some(r);
      match req
      case PostDeveloper(payload) => Developers.CreateKeepsEmailsUnique(db, payload);
      case PostDeveloperInfos(id, payload) => Developers.CreateInfosKeepsEmailsUnique(db, id, payload);
      case PatchDeveloper(id, payload) => Developers.UpdateKeepsEmailsUnique(db, id, payload);
      case DeleteDeveloper(id) =>
        assert r.db.developers.rows == rows - {id};
      case GetDeveloper(id) =>
      case PatchDeveloperInfos(id, payload) =>
      case PostProject(payload) =>
        assert r.db.developers == db.developers;
      case PostProjectTechnology(id, payload) =>
        assert r.db.developers == db.developers;
      case PatchProject(id, payload) =>
      case DeleteProject(id) =>
        assert r.db.developers == db.developers;
      case DeleteProjectTechnology(id, name) =>
        assert r.db.developers == db.developers;
    }
  }
}

=== FILE: developers.dfy ===
/**
 * The developer handlers: each takes the store and the request's route id
 * and body, and returns the reply together with the store after the
 * statements it issued.
 */
module Developers {
  import opened Wrappers
  import opened Payload
  import opened Validations
  import opened Store
  import opened Responses

  const CreateKeys: seq<string> := ["name", "email", "developer_infos_id"]
  const UpdateKeys: seq<string> := ["name", "email"]
  const InfoKeys: seq<string> := ["developer_since", "preferred_os"]

  const RequiredCreate := "Required keys: name and email."
  const EmailExists := "Email already exists."
  const RequiredInfos := "Required keys: developer_since and preferred_os"
  const AllowedOs := "Allowed values for preferred_os: Windows, Linux, MacOS"
  const RequiredUpdate := "Required keys: name or email."
  const RequiredUpdateInfos := "Required keys: developer_since or preferred_os."
  const NoDeveloperRow := "Cannot read properties of undefined (reading 'developer_infos_id')"

  /** POST /developers. Only name, email and developer_infos_id reach the
      insert. A missing name or email is a 400, a taken email a 409, a
      developer_infos_id naming no infos row a 500, and otherwise the new row,
      with a fresh id, is the 201 body; nothing else in the store changes, and
      a failed request changes nothing at all. Name and email are stored as
      the text pg-format writes for them. */
  function Create(db: Db, payload: Obj): (r: Reply)
    ensures r.status in {201, 400, 409, 500}
    ensures CreateOutcome(db, payload, r)
    ensures r.status != 201 ==> r.db == db
    ensures r.status == 201 && Wf(db) ==> r.body.id !in db.developers.rows
    ensures Wf(db) ==> Wf(r.db)
  {
    var body := FilterData(payload, CreateKeys);
    InsertDeveloperFiltered(db, payload);
    match InsertDeveloper(db, body)
    case Ok(w) => Reply(201, DeveloperRow(w.id, w.row), w.db)
    case Err(e) =>
      if e == NotNullViolation then Reply(400, Message(RequiredCreate), db)
      else if e == UniqueViolation then Reply(409, Message(EmailExists), db)
      else Reply(500, ServerError(e), db)
  }

  /** The reply POST /developers owes a payload, in the order the insert
      checks it: the developer_infos_id literal, NOT NULL, the UNIQUE email
      text, then the foreign key; a 201 exactly when all pass, with the new
      row under the counter's id and no other row touched. */
  predicate CreateOutcome(db: Db, payload: Obj, r: Reply)
  {
    var name, email, infos := Get(payload, "name"), Get(payload, "email"), Get(payload, "developer_infos_id");
    && (IdLiteral(infos).Err? ==> r == Reply(500, ServerError(IdLiteral(infos).error), db))
    && (IdLiteral(infos).Ok? && (IsNull(name) || IsNull(email)) ==> r == Reply(400, Message(RequiredCreate), db))
    && (IdLiteral(infos).Ok? && !IsNull(name) && !IsNull(email) && EmailInUse(db.developers.rows, email) ==>
          r == Reply(409, Message(EmailExists), db))
    && (IdLiteral(infos).Ok? && !IsNull(name) && !IsNull(email) && !EmailInUse(db.developers.rows, email)
        && infos.Num? && infos.n !in db.infos.rows ==>
          r == Reply(500, ServerError(ForeignKeyViolation), db))
    && (r.status == 201 <==>
          && IdLiteral(infos).Ok? && !IsNull(name) && !IsNull(email)
          && !EmailInUse(db.developers.rows, email)
          && (infos.Num? ==> infos.n in db.infos.rows))
    && (r.status == 201 ==>
          && r.body == DeveloperRow(db.developers.next, Developer(Text(name), Text(email), IdLiteral(infos).value))
          && r.db.developers.rows == db.developers.rows[r.body.id := r.body.developer]
          && r.db.(developers := db.developers) == db)
  }

  /** What the developers insert does with the filtered payload, decided on the payload itself. */
  lemma InsertDeveloperFiltered(db: Db, payload: Obj)
    ensures var name, email, infos := Get(payload, "name"), Get(payload, "email"), Get(payload, "developer_infos_id");
      InsertDeveloper(db, FilterData(payload, CreateKeys)) ==
        if IdLiteral(infos).Err? then Err(IdLiteral(infos).error)
        else if IsNull(name) || IsNull(email) then Err(NotNullViolation)
        else if EmailInUse(db.developers.rows, email) then Err(UniqueViolation)
        else if infos.Num? && infos.n !in db.infos.rows then Err(ForeignKeyViolation)
        else
          var row := Developer(Text(name), Text(email), IdLiteral(infos).value);
          Ok(Written(db.developers.next, row, db.(developers := Insert(db.developers, row).1)))
  {
    CreateBody(payload);
  }

  /** The filtered developer payload names only developer columns and
      carries the payload's three values. */
  lemma CreateBody(payload: Obj)
    ensures var body := FilterData(payload, CreateKeys);
      && OnlyColumns(body, DeveloperColumns)
      && Get(body, "name") == Get(payload, "name")
      && Get(body, "email") == Get(payload, "email")
      && Get(body, "developer_infos_id") == Get(payload, "developer_infos_id")
  {
    var body := FilterData(payload, CreateKeys);
    assert NoDuplicates(CreateKeys);
    FilterDataShape(payload, CreateKeys);
    assert body == [Field("name", Get(payload, "name")), Field("email", Get(payload, "email")),
                    Field("developer_infos_id", Get(payload, "developer_infos_id"))];
    assert Keys(body) == DeveloperColumns;
  }

  /** The catch block of POST /developers/:id/infos. */
  function InfosFailure(db: Db, e: DbError): Reply
  {
    if e == NotNullViolation then Reply(400, Message(RequiredInfos), db)
    else if e == EnumViolation then Reply(409, Message(AllowedOs), db)
    else Reply(500, ServerError(e), db)
  }

  /** POST /developers/:id/infos. A preferred_os outside the enum is a 409 and
      a missing field a 400, both before anything is written. Otherwise a new
      infos row is inserted, the route's developer is pointed at it (any infos
      row it pointed at before stays behind), and the new row is the 201 body.
      The outcome for each payload is stated by the lemmas below. */
  function CreateInfos(db: Db, id: int, payload: Obj): (r: Reply)
    ensures r.status in {201, 400, 409, 500}
    ensures r.status != 201 ==> r.db == db
    ensures Wf(db) ==> Wf(r.db)
  {
    var body := FilterData(payload, InfoKeys);
    match InsertInfo(db, body)
    case Err(e) => InfosFailure(db, e)
    case Ok(w) =>
      match SetDeveloperInfos(w.db, id, w.id)
      case Err(e) => InfosFailure(w.db, e)
      case Ok(u) => Reply(201, InfoRow(w.id, w.row), u.db)
  }

  /** POST /developers/:id/infos rejects before writing: a preferred_os
      outside the enum is a 409, and otherwise a missing field is a 400. */
  lemma CreateInfosRejects(db: Db, id: int, payload: Obj)
    ensures var os := Get(payload, "preferred_os");
      OsLiteral(os).Err? ==> CreateInfos(db, id, payload) == Reply(409, Message(AllowedOs), db)
    ensures var since, os := Get(payload, "developer_since"), Get(payload, "preferred_os");
      OsLiteral(os).Ok? && (IsNull(since) || IsNull(os)) ==>
        CreateInfos(db, id, payload) == Reply(400, Message(RequiredInfos), db)
  {
    InsertInfoFiltered(db, payload);
  }

  /** POST /developers/:id/infos succeeds exactly when preferred_os is one of
      the enum's labels and developer_since is present. */
  lemma CreateInfosSucceeds(db: Db, id: int, payload: Obj)
    ensures var since, os := Get(payload, "developer_since"), Get(payload, "preferred_os");
      CreateInfos(db, id, payload).status == 201 <==> OsLiteral(os).Ok? && !IsNull(since) && !IsNull(os)
  {
    var since, os := Get(payload, "developer_since"), Get(payload, "preferred_os");
    if OsLiteral(os).Ok? && !IsNull(since) && !IsNull(os) {
      CreateInfosPath(db, id, payload);
    } else {
      CreateInfosRejects(db, id, payload);
    }
  }

  /** On a valid payload the two statements both succeed, and the reply is
      the inserted row. */
  lemma CreateInfosPath(db: Db, id: int, payload: Obj)
    requires var since, os := Get(payload, "developer_since"), Get(payload, "preferred_os");
      OsLiteral(os).Ok? && !IsNull(since) && !IsNull(os)
    ensures var since, os := Get(payload, "developer_since"), Get(payload, "preferred_os");
      OsLiteral(os).value.Some? &&
      var row := Info(since, OsLiteral(os).value.value);
      var w := Written(db.infos.next, row, db.(infos := Insert(db.infos, row).1));
      && SetDeveloperInfos(w.db, id, w.id).Ok?
      && CreateInfos(db, id, payload) == Reply(201, InfoRow(w.id, w.row), SetDeveloperInfos(w.db, id, w.id).value.db)
  {
    var since, os := Get(payload, "developer_since"), Get(payload, "preferred_os");
    assert OsLiteral(os).value.Some?;
    InsertInfoFiltered(db, payload);
    var row := Info(since, OsLiteral(os).value.value);
    var w := Written(db.infos.next, row, db.(infos := Insert(db.infos, row).1));
    assert InsertInfo(db, FilterData(payload, InfoKeys)) == Ok(w);
    assert w.id in w.db.infos.rows;
  }

  /** A 201 from POST /developers/:id/infos: the new infos row, under a fresh
      id, is the body, and the infos table gains exactly that row. */
  lemma CreateInfosWrites(db: Db, id: int, payload: Obj)
    requires CreateInfos(db, id, payload).status == 201
    ensures var r, since, os := CreateInfos(db, id, payload), Get(payload, "developer_since"), Get(payload, "preferred_os");
      && OsLiteral(os).Ok? && OsLiteral(os).value.Some?
      && r.body == InfoRow(db.infos.next, Info(since, OsLiteral(os).value.value))
      && r.db.infos.rows == db.infos.rows[r.body.id := r.body.info]
      && (Wf(db) ==> r.body.id !in db.infos.rows)
  {
    CreateInfosSucceeds(db, id, payload);
    CreateInfosPath(db, id, payload);
  }

  /** A 201 from POST /developers/:id/infos points the route's developer, when
      there is one, at the new row; no other table changes. */
  lemma CreateInfosLinks(db: Db, id: int, payload: Obj)
    requires CreateInfos(db, id, payload).status == 201
    ensures var r := CreateInfos(db, id, payload);
      && (id in db.developers.rows ==>
            r.db.developers.rows == db.developers.rows[id := db.developers.rows[id].(infosId := Some(r.body.id))])
      && (id !in db.developers.rows ==> r.db.developers == db.developers)
      && r.db.projects == db.projects
      && r.db.technologies == db.technologies
      && r.db.links == db.links
  {
    CreateInfosSucceeds(db, id, payload);
    CreateInfosPath(db, id, payload);
  }

  /** What the infos insert does with the filtered payload, decided on the payload itself. */
  lemma InsertInfoFiltered(db: Db, payload: Obj)
    ensures var r, os := InsertInfo(db, FilterData(payload, InfoKeys)), Get(payload, "preferred_os");
      OsLiteral(os).Err? ==> r == Err(EnumViolation)
    ensures var r, since, os := InsertInfo(db, FilterData(payload, InfoKeys)), Get(payload, "developer_since"), Get(payload, "preferred_os");
      OsLiteral(os).Ok? && (IsNull(since) || IsNull(os)) ==> r == Err(NotNullViolation)
    ensures var r, since, os := InsertInfo(db, FilterData(payload, InfoKeys)), Get(payload, "developer_since"), Get(payload, "preferred_os");
      OsLiteral(os).Ok? && !IsNull(since) && OsLiteral(os).value.Some? ==>
        var row := Info(since, OsLiteral(os).value.value);
        r == Ok(Written(db.infos.next, row, db.(infos := Insert(db.infos, row).1)))
  {
    InfoBody(payload);
    InsertInfoOn(db, FilterData(payload, InfoKeys), Get(payload, "developer_since"), Get(payload, "preferred_os"));
  }

  /** What the infos insert does with a column list that holds `since` and `os`. */
  lemma InsertInfoOn(db: Db, body: Obj, since: Value, os: Value)
    requires OnlyColumns(body, InfoColumns)
    requires Get(body, "developer_since") == since && Get(body, "preferred_os") == os
    ensures OsLiteral(os).Err? ==> InsertInfo(db, body) == Err(EnumViolation)
    ensures OsLiteral(os).Ok? && (IsNull(since) || IsNull(os)) ==> InsertInfo(db, body) == Err(NotNullViolation)
    ensures OsLiteral(os).Ok? && !IsNull(since) && OsLiteral(os).value.Some? ==>
      var row := Info(since, OsLiteral(os).value.value);
      InsertInfo(db, body) == Ok(Written(db.infos.next, row, db.(infos := Insert(db.infos, row).1)))
  {
  }

  /** The filtered infos payload names only infos columns and carries the
      payload's two values. */
  lemma InfoBody(payload: Obj)
    ensures var body := FilterData(payload, InfoKeys);
      && OnlyColumns(body, InfoColumns)
      && Get(body, "developer_since") == Get(payload, "developer_since")
      && Get(body, "preferred_os") == Get(payload, "preferred_os")
  {
    var body := FilterData(payload, InfoKeys);
    assert NoDuplicates(InfoKeys);
    FilterDataShape(payload, InfoKeys);
    assert body == [Field("developer_since", Get(payload, "developer_since")),
                    Field("preferred_os", Get(payload, "preferred_os"))];
    assert Keys(body) == InfoColumns;
  }

  /** PATCH /developers/:id. Only name and email can change, and only to a
      truthy value; falsy values leave the stored ones alone. No truthy field
      is a 400, an email another developer has is a 409, and neither changes
      the store. An id with no row is a 200 with an empty body. */
  function Update(db: Db, id: int, payload: Obj): (r: Reply)
    ensures r.status in {200, 400, 409}
    ensures var name, email := Get(payload, "name"), Get(payload, "email");
      && (!Truthy(name) && !Truthy(email) ==> r == Reply(400, Message(RequiredUpdate), db))
      && ((Truthy(name) || Truthy(email)) && id !in db.developers.rows ==> r == Reply(200, Empty, db))
      && ((Truthy(name) || Truthy(email)) && id in db.developers.rows ==>
            var d' := PatchedDeveloper(db.developers.rows[id], payload);
            if Truthy(email) && EmailInUse(db.developers.rows - {id}, email) then
              r == Reply(409, Message(EmailExists), db)
            else
              r == Reply(200, DeveloperRow(id, d'),
                         db.(developers := db.developers.(rows := db.developers.rows[id := d']))))
    ensures Wf(db) ==> Wf(r.db)
  {
    var body := UpdateFields(payload, UpdateKeys);
    DeveloperSetListShape(payload);
    DeveloperSetList(db, id, body, payload);
    match UpdateDeveloper(db, id, body)
    case Ok(u) => Reply(200, if u.row.Some? then DeveloperRow(id, u.row.value) else Empty, u.db)
    case Err(e) =>
      if e == EmptySetList then Reply(400, Message(RequiredUpdate), db)
      else if e == UniqueViolation then Reply(409, Message(EmailExists), db)
      else Reply(500, ServerError(e), db)
  }

  /** The stored developer with the text of the truthy name and email written over it. */
  function PatchedDeveloper(d: Developer, payload: Obj): Developer
  {
    var name, email := Get(payload, "name"), Get(payload, "email");
    d.(name := if Truthy(name) then Text(name) else d.name,
       email := if Truthy(email) then Text(email) else d.email)
  }

  /** A SET list that follows the partial-update rule for PATCH /developers/:id. */
  predicate DeveloperShaped(body: Obj, payload: Obj)
  {
    && Reflects(body, payload, "name") && Reflects(body, payload, "email")
    && "developer_infos_id" !in Keys(body)
    && OnlyColumns(body, DeveloperColumns)
    && (body == [] <==> !Truthy(Get(payload, "name")) && !Truthy(Get(payload, "email")))
    && AllTruthy(body)
  }

  /** The SET list a payload yields for PATCH /developers/:id follows the rule. */
  lemma DeveloperSetListShape(payload: Obj)
    ensures DeveloperShaped(UpdateFields(payload, UpdateKeys), payload)
  {
    UpdateFieldsReflects(payload, UpdateKeys, "name");
    UpdateFieldsReflects(payload, UpdateKeys, "email");
  }

  /** What the developers UPDATE does with such a SET list. */
  lemma DeveloperSetList(db: Db, id: int, body: Obj, payload: Obj)
    requires DeveloperShaped(body, payload)
    ensures var email := Get(payload, "email");
      UpdateDeveloper(db, id, body) ==
        if body == [] then Err(EmptySetList)
        else if id !in db.developers.rows then Ok(Updated(None, db))
        else
          var d' := PatchedDeveloper(db.developers.rows[id], payload);
          if Truthy(email) && EmailInUse(db.developers.rows - {id}, email) then Err(UniqueViolation)
          else Ok(Updated(Some(d'), db.(developers := db.developers.(rows := db.developers.rows[id := d']))))
  {
    if body != [] && id in db.developers.rows {
      TruthyNotNull(body, ["name", "email"]);
    }
  }

  /** PATCH /developers/:id/infos. The same partial-update rule over
      developer_since and preferred_os, applied to the infos row whose id is
      the route id (not the row the developer points at). */
  function UpdateInfos(db: Db, id: int, payload: Obj): (r: Reply)
    ensures r.status in {200, 400, 409}
    ensures r.status != 200 ==> r.db == db
    ensures r.db.developers == db.developers && r.db.projects == db.projects
    ensures Wf(db) ==> Wf(r.db)
  {
    var body := UpdateFields(payload, InfoKeys);
    InfoSetListShape(payload);
    InfoSetList(db, id, UpdateFields(payload, InfoKeys), payload);
    match UpdateInfo(db, id, body)
    case Ok(u) => Reply(200, if u.row.Some? then InfoRow(id, u.row.value) else Empty, u.db)
    case Err(e) =>
      if e == EmptySetList then Reply(400, Message(RequiredUpdateInfos), db)
      else if e == EnumViolation then Reply(409, Message(AllowedOs), db)
      else Reply(500, ServerError(e), db)
  }

  /** The stored infos row with the truthy values written over it. */
  function PatchedInfo(i: Info, since: Value, os: Value): Info
    requires Truthy(os) ==> OsLiteral(os).Ok?
  {
    Info(if Truthy(since) then since else i.developerSince,
         if Truthy(os) then OsLiteral(os).value.value else i.preferredOs)
  }

  /** PATCH /developers/:id/infos with no truthy field is a 400 that changes nothing. */
  lemma UpdateInfosNeedsAField(db: Db, id: int, payload: Obj)
    requires !Truthy(Get(payload, "developer_since")) && !Truthy(Get(payload, "preferred_os"))
    ensures UpdateInfos(db, id, payload) == Reply(400, Message(RequiredUpdateInfos), db)
  {
    InfoSetListShape(payload);
    InfoSetList(db, id, UpdateFields(payload, InfoKeys), payload);
  }

  /** A truthy preferred_os outside the enum is a 409 that changes nothing. */
  lemma UpdateInfosRejectsUnknownOs(db: Db, id: int, payload: Obj)
    requires Truthy(Get(payload, "preferred_os")) && OsLiteral(Get(payload, "preferred_os")).Err?
    ensures UpdateInfos(db, id, payload) == Reply(409, Message(AllowedOs), db)
  {
    InfoSetListShape(payload);
    InfoSetList(db, id, UpdateFields(payload, InfoKeys), payload);
  }

  /** Otherwise the infos row whose id is the ROUTE id gets the truthy fields
      (an empty 200 when there is none); no other row changes. */
  lemma UpdateInfosKeysOnRouteId(db: Db, id: int, payload: Obj)
    requires var since, os := Get(payload, "developer_since"), Get(payload, "preferred_os");
      (Truthy(since) || Truthy(os)) && (Truthy(os) ==> OsLiteral(os).Ok?)
    ensures var since, os := Get(payload, "developer_since"), Get(payload, "preferred_os");
      var r := UpdateInfos(db, id, payload);
      if id !in db.infos.rows then r == Reply(200, Empty, db)
      else
        var i' := PatchedInfo(db.infos.rows[id], since, os);
        r == Reply(200, InfoRow(id, i'), db.(infos := db.infos.(rows := db.infos.rows[id := i'])))
  {
    var body, since, os := UpdateFields(payload, InfoKeys), Get(payload, "developer_since"), Get(payload, "preferred_os");
    InfoSetListShape(payload);
    InfoSetList(db, id, UpdateFields(payload, InfoKeys), payload);
    var u := UpdateInfo(db, id, body);
    assert u.Ok?;
    assert UpdateInfos(db, id, payload) == Reply(200, if u.value.row.Some? then InfoRow(id, u.value.row.value) else Empty, u.value.db);
  }

  /** A SET list that follows the partial-update rule for PATCH /developers/:id/infos. */
  predicate InfoShaped(body: Obj, payload: Obj)
  {
    && Reflects(body, payload, "developer_since") && Reflects(body, payload, "preferred_os")
    && OnlyColumns(body, InfoColumns)
    && (body == [] <==> !Truthy(Get(payload, "developer_since")) && !Truthy(Get(payload, "preferred_os")))
    && AllTruthy(body)
  }

  /** The SET list a payload yields for PATCH /developers/:id/infos follows the rule. */
  lemma InfoSetListShape(payload: Obj)
    ensures InfoShaped(UpdateFields(payload, InfoKeys), payload)
  {
    UpdateFieldsReflects(payload, InfoKeys, "developer_since");
    UpdateFieldsReflects(payload, InfoKeys, "preferred_os");
  }

  /** What the infos UPDATE does with such a SET list. */
  lemma InfoSetList(db: Db, id: int, body: Obj, payload: Obj)
    requires InfoShaped(body, payload)
    ensures var since, os := Get(payload, "developer_since"), Get(payload, "preferred_os");
      UpdateInfo(db, id, body) ==
        if !Truthy(since) && !Truthy(os) then Err(EmptySetList)
        else if Truthy(os) && OsLiteral(os).Err? then Err(EnumViolation)
        else if id !in db.infos.rows then Ok(Updated(None, db))
        else
          var i' := PatchedInfo(db.infos.rows[id], since, os);
          Ok(Updated(Some(i'), db.(infos := db.infos.(rows := db.infos.rows[id := i']))))
  {
    var os := Get(payload, "preferred_os");
    if body != [] && !(Truthy(os) && OsLiteral(os).Err?) && id in db.infos.rows {
      TruthyNotNull(body, InfoColumns);
    }
  }

  /** `if (rows[0].developer_infos_id)`: the developer points at an infos row
      by a truthy id. */
  predicate HasInfos(d: Developer)
  {
    d.infosId.Some? && d.infosId.value != 0
  }

  /** DELETE /developers/:id. Deletes the developer's infos row first, when
      it has one, then the developer; no other row is touched. A missing
      developer fails reading the lookup's first row, a 500 with nothing deleted. */
  function Remove(db: Db, id: int): (r: Reply)
    ensures id !in db.developers.rows ==> r.status == 500 && r.db == db
    ensures id in db.developers.rows ==>
      var d := db.developers.rows[id];
      && r.status == 204 && r.body == Empty
      && r.db.developers.rows == db.developers.rows - {id}
      && r.db.infos.rows == (if HasInfos(d) then db.infos.rows - {d.infosId.value} else db.infos.rows)
      && r.db.developers.next == db.developers.next
      && r.db.infos.next == db.infos.next
      && r.db.projects == db.projects
      && r.db.technologies == db.technologies
      && r.db.links == db.links
    ensures Wf(db) ==> Wf(r.db)
  {
    if id !in db.developers.rows then Reply(500, ServerError(Other(NoDeveloperRow)), db)
    else
      var d := db.developers.rows[id];
      var db1 := if HasInfos(d) then db.(infos := Delete(db.infos, d.infosId.value)) else db;
      Reply(204, Empty, db1.(developers := Delete(db1.developers, id)))
  }

  /** GET /developers/:id. The lookup is by primary key, so at most one row
      comes back: the developer with its infos columns, NULL when it points at
      no existing infos row; an empty body when there is no such developer. */
  function ReadDeveloper(db: Db, id: int): (r: Reply)
    ensures r.status == 200 && r.db == db
    ensures r.body.DeveloperView? <==> id in db.developers.rows
    ensures r.body.DeveloperView? ==>
      var d := db.developers.rows[id];
      && r.body.id == id && r.body.developer == d
      && (d.infosId.Some? && d.infosId.value in db.infos.rows ==>
            var i := db.infos.rows[d.infosId.value];
            r.body.developerSince == i.developerSince && r.body.preferredOs == Some(i.preferredOs))
      && (!(d.infosId.Some? && d.infosId.value in db.infos.rows) ==>
            r.body.developerSince == Null && r.body.preferredOs == None)
    ensures !r.body.DeveloperView? ==> r.body == Empty
  {
    if id !in db.developers.rows then Reply(200, Empty, db)
    else
      var d := db.developers.rows[id];
      if d.infosId.Some? && d.infosId.value in db.infos.rows then
        var i := db.infos.rows[d.infosId.value];
        Reply(200, DeveloperView(id, d, i.developerSince, Some(i.preferredOs)), db)
      else
        Reply(200, DeveloperView(id, d, Null, None), db)
  }

  /** Keys outside name, email and developer_infos_id never reach the store:
      two payloads that agree on those three get the same reply and store. */
  lemma CreateIgnoresOtherKeys(db: Db, p: Obj, q: Obj)
    requires forall k :: k in CreateKeys ==> Get(p, k) == Get(q, k)
    ensures Create(db, p) == Create(db, q)
  {
    FilterDataOnlyReadsAllowList(p, q, CreateKeys);
  }

  /** Posting the same developer twice: the first is a 201, and the second
      meets the email the first stored and is a 409 that changes nothing. */
  lemma CreateTwiceConflicts(db: Db, payload: Obj)
    requires Create(db, payload).status == 201
    ensures var r := Create(db, payload);
      Create(r.db, payload) == Reply(409, Message(EmailExists), r.db)
  {
    var r := Create(db, payload);
    assert r.db.developers.rows[r.body.id].email == Text(Get(payload, "email"));
  }

  /** A created developer reads back, under the id the 201 reported, as
      the row that was posted, its name and email as text. */
  lemma CreateThenRead(db: Db, payload: Obj)
    requires Create(db, payload).status == 201
    ensures var r := Create(db, payload);
      && ReadDeveloper(r.db, r.body.id).body.DeveloperView?
      && ReadDeveloper(r.db, r.body.id).body.developer.name == Text(Get(payload, "name"))
      && ReadDeveloper(r.db, r.body.id).body.developer.email == Text(Get(payload, "email"))
  {
  }

  /** Deleting a developer right after giving it infos deletes those infos
      too: serial ids start at 1, so the new infos id is truthy, and the
      infos table is back to what it was. */
  lemma CreateInfosThenRemove(db: Db, id: int, payload: Obj)
    requires Wf(db) && id in db.developers.rows
    requires CreateInfos(db, id, payload).status == 201
    ensures var r := CreateInfos(db, id, payload);
      var after := Remove(r.db, id);
      && after.status == 204
      && id !in after.db.developers.rows
      && r.body.id !in after.db.infos.rows
      && after.db.infos.rows == db.infos.rows
  {
    var r := CreateInfos(db, id, payload);
    CreateInfosWrites(db, id, payload);
    CreateInfosLinks(db, id, payload);
    var d := r.db.developers.rows[id];
    assert d.infosId == Some(r.body.id) && HasInfos(d);
    assert r.db.infos.rows - {r.body.id} == db.infos.rows;
  }

  /** Posting infos for a developer that already has some repoints it at a
      new row; the old row stays in the store with nobody pointing at it
      from this developer. */
  lemma CreateInfosTwiceOrphans(db: Db, id: int, payload: Obj)
    requires Wf(db) && id in db.developers.rows
    requires CreateInfos(db, id, payload).status == 201
    requires var d := db.developers.rows[id]; d.infosId.Some? && d.infosId.value in db.infos.rows
    ensures var r, old_infos := CreateInfos(db, id, payload), db.developers.rows[id].infosId.value;
      && old_infos in r.db.infos.rows
      && r.db.developers.rows[id].infosId == Some(r.body.id)
      && r.body.id != old_infos
  {
    CreateInfosWrites(db, id, payload);
    CreateInfosLinks(db, id, payload);
  }

  /** POST /developers keeps developer emails unique: the new row's email is
      one no stored row has. */
  lemma CreateKeepsEmailsUnique(db: Db, payload: Obj)
    requires Wf(db) && UniqueEmails(db.developers.rows)
    ensures UniqueEmails(Create(db, payload).db.developers.rows)
  {
    var r := Create(db, payload);
    if r.status == 201 {
      var rows, email := db.developers.rows, Get(payload, "email");
      assert r.body.developer.email == Text(email);
      forall k | k in rows && k != r.body.id
        ensures rows[k].email != r.body.developer.email
      {
        assert !(rows[k].email == Text(email));
      }
      UniqueEmailsPut(rows, r.body.id, r.body.developer);
    }
  }

  /** PATCH /developers/:id keeps developer emails unique: a new email is one
      no other row has, and an unchanged email stays unique. */
  lemma UpdateKeepsEmailsUnique(db: Db, id: int, payload: Obj)
    requires UniqueEmails(db.developers.rows)
    ensures UniqueEmails(Update(db, id, payload).db.developers.rows)
  {
    var rows, name, email := db.developers.rows, Get(payload, "name"), Get(payload, "email");
    var r := Update(db, id, payload);
    if (Truthy(name) || Truthy(email)) && id in rows && r.status == 200 {
      var d' := PatchedDeveloper(rows[id], payload);
      assert r.db.developers.rows == rows[id := d'];
      forall k | k in rows && k != id
        ensures rows[k].email != d'.email
      {
        if Truthy(email) {
          assert k in rows - {id};
        }
      }
      UniqueEmailsPut(rows, id, d');
    }
  }

  /** POST /developers/:id/infos changes no email. */
  lemma CreateInfosKeepsEmailsUnique(db: Db, id: int, payload: Obj)
    requires UniqueEmails(db.developers.rows)
    ensures UniqueEmails(CreateInfos(db, id, payload).db.developers.rows)
  {
    var rows := db.developers.rows;
    var r := CreateInfos(db, id, payload);
    if r.status == 201 && id in rows {
      CreateInfosLinks(db, id, payload);
      UniqueEmailsPut(rows, id, rows[id].(infosId := Some(r.body.id)));
    }
  }

  /** Posting a developer whose email is the number 5 when a developer's
      email is the text "5": pg-format writes the number as '5', so the
      UNIQUE constraint rejects it, as it would the text itself. */
  lemma NumericEmailConflicts(db: Db, payload: Obj)
    requires 1 in db.developers.rows && db.developers.rows[1].email == Str("5")
    requires !IsNull(Get(payload, "name")) && IsNull(Get(payload, "developer_infos_id"))
    requires Get(payload, "email") == Num(5)
    ensures Create(db, payload) == Reply(409, Message(EmailExists), db)
  {
    assert Text(Num(5)) == Str("5");
    assert EmailInUse(db.developers.rows, Num(5));
  }

  /** The same on PATCH: another developer's email cannot be set to the
      number 5 while some developer's email is the text "5". */
  lemma NumericEmailConflictsOnUpdate(db: Db, payload: Obj)
    requires 1 in db.developers.rows && db.developers.rows[1].email == Str("5")
    requires 2 in db.developers.rows
    requires Get(payload, "email") == Num(5)
    ensures Update(db, 2, payload) == Reply(409, Message(EmailExists), db)
  {
    assert Text(Num(5)) == Str("5");
    assert 1 in db.developers.rows - {2};
    assert EmailInUse(db.developers.rows - {2}, Num(5));
  }
}

=== FILE: middlewares.dfy ===
/**
 * The existence guards that run before the handlers of routes with an id.
 * A guard only reads the store: it answers the request itself, lets it
 * through to the handler, or fails outright. Its SELECT passes the route id
 * as a parameter of the `integer` id column, so an id outside that type's
 * range makes the query throw; the guard has no catch, so no reply is sent.
 */
module Middlewares {
  import opened Store
  import opened Responses

  /** What a guard decides: pass the request on, answer it here, or fail
      with the request left unanswered. */
  datatype Verdict = Continue | Halt(status: int, body: Body) | Unanswered

  const DeveloperMissing := "Developer not found."
  const ProjectMissing := "Project not found."

  /** `developerExists`: a 404 when no developer has the route id. */
  function DeveloperExists(db: Db, id: int): (v: Verdict)
    ensures v.Unanswered? <==> !IsInteger(id)
    ensures v.Continue? <==> IsInteger(id) && id in db.developers.rows
    ensures v.Halt? ==> v == Halt(404, Message(DeveloperMissing))
  {
    if !IsInteger(id) then Unanswered
    else if id in db.developers.rows then Continue
    else Halt(404, Message(DeveloperMissing))
  }

  /** `projectExists`: a 404 when no project has the route id. */
  function ProjectExists(db: Db, id: int): (v: Verdict)
    ensures v.Unanswered? <==> !IsInteger(id)
    ensures v.Continue? <==> IsInteger(id) && id in db.projects.rows
    ensures v.Halt? ==> v == Halt(404, Message(ProjectMissing))
  {
    if !IsInteger(id) then Unanswered
    else if id in db.projects.rows then Continue
    else Halt(404, Message(ProjectMissing))
  }
}

=== FILE: payload.dfy ===
/**
 * JSON request bodies as the handlers see them: plain JavaScript objects whose
 * keys keep insertion order, holding a small set of JavaScript values.
 */
module Payload {

  /** A JavaScript value as it can appear in a parsed JSON body.
      Numbers are integers here (no fractions, NaN or -0). */
  datatype Value = Undefined | Null | Str(s: string) | Num(n: int) | Bool(b: bool)

  /** The falsy values of JavaScript that a JSON body can hold (no `NaN`, no `-0`). */
  const FalsyValues: set<Value> := {Undefined, Null, Str(""), Num(0), Bool(false)}

  /** JavaScript truthiness: `!v` is `false` exactly when `Truthy(v)`. */
  function Truthy(v: Value): (b: bool)
    ensures b <==> v !in FalsyValues
  {
    match v
    case Undefined => false
    case Null => false
    case Str(s) => s != ""
    case Num(n) => n != 0
    case Bool(b) => b
  }

  /** The values pg-format's `%L` writes as SQL NULL. */
  predicate IsNull(v: Value)
  {
    v.Undefined? || v.Null?
  }

  /** Every property of `o` holds a truthy value. */
  predicate AllTruthy(o: seq<Field>)
  {
    forall j :: j in Keys(o) ==> Truthy(Get(o, j))
  }

  /** One own property of an object. */
  datatype Field = Field(key: string, value: Value)

  /** An object: its own properties in insertion order. */
  type Obj = seq<Field>

  /** `Object.keys(o)`. */
  function Keys(o: Obj): (ks: seq<string>)
    ensures |ks| == |o|
  {
    if o == [] then [] else [o[0].key] + Keys(o[1..])
  }

  /** No key occurs twice; every object built by JavaScript has this shape. */
  predicate NoDuplicates(ks: seq<string>)
  {
    ks == [] || (ks[0] !in ks[1..] && NoDuplicates(ks[1..]))
  }

  /** `o[k]`: the property's value, `undefined` when `o` has no such key. */
  function Get(o: Obj, k: string): (v: Value)
    ensures k !in Keys(o) ==> v == Undefined
  {
    if o == [] then Undefined
    else if o[0].key == k then o[0].value
    else Get(o[1..], k)
  }

  /** In an object with distinct keys, reading a property's key gives its value. */
  lemma {:induction false} GetField(o: Obj, f: Field)
    requires NoDuplicates(Keys(o))
    requires f in o
    ensures Get(o, f.key) == f.value
    decreases |o|
  {
    if o[0] != f {
      assert f in o[1..];
      if o[0].key == f.key {
        KeysCover(o[1..]);
        assert false;
      }
      GetField(o[1..], f);
    }
  }

  /** `o[k] = v`: an existing key keeps its position, a new key goes last. */
  function Put(o: Obj, k: string, v: Value): (r: Obj)
    ensures Get(r, k) == v
    ensures forall j :: j != k ==> Get(r, j) == Get(o, j)
    ensures Keys(r) == if k in Keys(o) then Keys(o) else Keys(o) + [k]
  {
    if o == [] then [Field(k, v)]
    else if o[0].key == k then [Field(k, v)] + o[1..]
    else
      var rest := Put(o[1..], k, v);
      assert Keys([o[0]] + rest) == [o[0].key] + Keys(rest);
      [o[0]] + rest
  }

  /** Writing a key keeps an object's keys distinct. */
  lemma PutKeepsDistinct(o: Obj, k: string, v: Value)
    requires NoDuplicates(Keys(o))
    ensures NoDuplicates(Keys(Put(o, k, v)))
  {
    if k !in Keys(o) {
      NoDuplicatesAppend(Keys(o), k);
    }
  }

  lemma {:induction false} NoDuplicatesAppend(ks: seq<string>, k: string)
    requires k !in ks
    ensures NoDuplicates(ks) ==> NoDuplicates(ks + [k])
    decreases |ks|
  {
    if ks != [] {
      assert (ks + [k])[1..] == ks[1..] + [k];
      NoDuplicatesAppend(ks[1..], k);
    }
  }

  /** `{...a, ...b}`: the properties of `a`, each overwritten by `b` when `b`
      has the key, followed by `b`'s new keys in `b`'s order. */
  function Spread(a: Obj, b: Obj): Obj
    decreases |b|
  {
    if b == [] then a else Spread(Put(a, b[0].key, b[0].value), b[1..])
  }

  lemma {:induction false} KeysCover(o: Obj)
    ensures forall f :: f in o ==> f.key in Keys(o)
    decreases |o|
  {
    if o != [] {
      KeysCover(o[1..]);
    }
  }

  lemma {:induction false} GetPresent(o: Obj, k: string)
    requires k in Keys(o)
    ensures exists f :: f in o && f.key == k && Get(o, k) == f.value
    decreases |o|
  {
    if o[0].key != k {
      assert k in Keys(o[1..]);
      GetPresent(o[1..], k);
      var f :| f in o[1..] && f.key == k && Get(o[1..], k) == f.value;
      assert f in o;
    }
  }

  lemma {:induction false} KeysAt(o: Obj)
    ensures forall i :: 0 <= i < |o| ==> Keys(o)[i] == o[i].key
    decreases |o|
  {
    if o != [] {
      KeysAt(o[1..]);
    }
  }
}

=== FILE: projects.dfy ===
/**
 * The project handlers, including the project/technology associations.
 */
module Projects {
  import opened Wrappers
  import opened Payload
  import opened Validations
  import opened Store
  import opened Responses

  const ProjectKeys: seq<string> :=
    ["name", "description", "estimated_time", "repository", "start_date", "end_date", "developer_id"]
  const TechnologyKeys: seq<string> := ["name"]

  /** The technology names both association handlers accept. */
  const Technologies: seq<string> :=
    ["CSS", "Django", "Express.js", "HTML", "Javascript", "MongoDB", "PostgreSQL", "Python", "React"]

  /** The options the unsupported-technology 404 lists, spelled as in the handler. */
  const AdvertisedOptions: seq<string> :=
    ["JavaScript", "Python", "React", "Express.js", "HTML", "CSS", "Django", "PostgreSQL", "MongoDB"]

  const RequiredProject :=
    "Required keys: name, description, estimated_time, repository, start_date, end_date, developer_id."
  const DeveloperNotFound := "Developer not found."
  const AllowedTechnologies :=
    "Allowed values: CSS, Django, Express.js, HTML, Javascript, MongoDB, PostgreSQL, Python, React"
  const NotSupported := "Technology not supported"
  const NoTechnologyRow := "Cannot read properties of undefined (reading 'id')"

  function NotOnProject(name: string): string
  {
    "Technology " + name + " not found on this Project."
  }

  /** POST /projects. Only the seven project keys reach the insert. A missing
      required value is a 400, a developer_id naming no developer a 404, and
      otherwise the new row, with a fresh id, is the 201 body; a failed
      request changes nothing. */
  function Create(db: Db, payload: Obj): (r: Reply)
    ensures r.status in {201, 400, 404, 500}
    ensures var dev := Get(payload, "developer_id");
      && (IdLiteral(dev).Err? ==> r == Reply(500, ServerError(IdLiteral(dev).error), db))
      && (IdLiteral(dev).Ok? && SomeNull(payload, ProjectRequired) ==>
            r == Reply(400, Message(RequiredProject), db))
      && (IdLiteral(dev).Ok? && !SomeNull(payload, ProjectRequired) && dev.Num? && dev.n !in db.developers.rows ==>
            r == Reply(404, Message(DeveloperNotFound), db))
      && (r.status == 201 <==>
            IdLiteral(dev).Ok? && !SomeNull(payload, ProjectRequired) && dev.Num? && dev.n in db.developers.rows)
      && (r.status == 201 ==>
            && r.body == ProjectRow(db.projects.next, RowOf(payload, dev.n))
            && r.db.projects.rows == db.projects.rows[r.body.id := r.body.project]
            && r.db.(projects := db.projects) == db)
    ensures r.status != 201 ==> r.db == db
    ensures r.status == 201 && Wf(db) ==> r.body.id !in db.projects.rows
    ensures Wf(db) ==> Wf(r.db)
  {
    var body := FilterData(payload, ProjectKeys);
    InsertFiltered(db, payload);
    match InsertProject(db, body)
    case Ok(w) => Reply(201, ProjectRow(w.id, w.row), w.db)
    case Err(e) =>
      if e == NotNullViolation then Reply(400, Message(RequiredProject), db)
      else if e == ForeignKeyViolation then Reply(404, Message(DeveloperNotFound), db)
      else Reply(500, ServerError(e), db)
  }

  /** The row a payload describes, once the insert accepts it: the text
      columns hold the text pg-format writes for the values. */
  function RowOf(payload: Obj, developerId: int): Project
  {
    Project(
      Text(Get(payload, "name")), Text(Get(payload, "description")), Text(Get(payload, "estimated_time")),
      Text(Get(payload, "repository")), Get(payload, "start_date"), Nullable(Get(payload, "end_date")),
      developerId)
  }

  /** The filtered payload agrees with the payload on every project column
      and carries no other key. */
  lemma FilteredColumns(payload: Obj)
    ensures RowOf(FilterData(payload, ProjectKeys), 0) == RowOf(payload, 0)
    ensures Get(FilterData(payload, ProjectKeys), "developer_id") == Get(payload, "developer_id")
    ensures SomeNull(FilterData(payload, ProjectKeys), ProjectRequired) <==> SomeNull(payload, ProjectRequired)
    ensures OnlyColumns(FilterData(payload, ProjectKeys), ProjectColumns)
  {
    FilteredRow(payload);
    FilteredNulls(payload);
    assert ProjectKeys == ProjectColumns;
  }

  lemma FilteredRow(payload: Obj)
    ensures RowOf(FilterData(payload, ProjectKeys), 0) == RowOf(payload, 0)
    ensures Get(FilterData(payload, ProjectKeys), "developer_id") == Get(payload, "developer_id")
  {
    var body := FilterData(payload, ProjectKeys);
    assert "name" in ProjectKeys && "description" in ProjectKeys && "estimated_time" in ProjectKeys;
    assert "repository" in ProjectKeys && "start_date" in ProjectKeys && "end_date" in ProjectKeys;
    assert "developer_id" in ProjectKeys;
  }

  lemma FilteredNulls(payload: Obj)
    ensures SomeNull(FilterData(payload, ProjectKeys), ProjectRequired) <==> SomeNull(payload, ProjectRequired)
  {
    var body := FilterData(payload, ProjectKeys);
    forall c | c in ProjectRequired
      ensures Get(body, c) == Get(payload, c)
    {
      assert c in ProjectKeys;
    }
  }

  /** What the insert does with the filtered payload, decided on the payload itself. */
  lemma InsertFiltered(db: Db, payload: Obj)
    ensures var body, dev := FilterData(payload, ProjectKeys), Get(payload, "developer_id");
      InsertProject(db, body) ==
        if IdLiteral(dev).Err? then Err(IdLiteral(dev).error)
        else if SomeNull(payload, ProjectRequired) then Err(NotNullViolation)
        else if !(dev.Num? && dev.n in db.developers.rows) then Err(ForeignKeyViolation)
        else
          var row := RowOf(payload, dev.n);
          Ok(Written(db.projects.next, row, db.(projects := Insert(db.projects, row).1)))
  {
    FilteredColumns(payload);
    assert "developer_id" in ProjectRequired;
  }

  /** POST /projects/:id/technologies. A name outside the accept-list is a
      400 before anything is read. Otherwise exactly one association (route
      id, the named technology's id, today) is added, and the 201 body is the
      FIRST row of the project's join with its technologies, which need not be
      the association just added. A route id naming no project fails the
      foreign key and is reported as a 404 "Developer not found.". */
  function CreateTechnology(db: Db, id: int, payload: Obj, today: string): (r: Reply)
    ensures r.status in {201, 400, 404, 500}
    ensures r.status != 201 ==> r.db == db
    ensures var name := Get(payload, "name");
      && (!(name.Str? && name.s in Technologies) ==> r == Reply(400, Message(AllowedTechnologies), db))
      && (r.status == 201 <==>
            name.Str? && name.s in Technologies && FindTechnology(db, name.s).Some? && id in db.projects.rows)
      && (name.Str? && name.s in Technologies && FindTechnology(db, name.s).None? ==>
            r == Reply(500, ServerError(Other(NoTechnologyRow)), db))
      && (name.Str? && name.s in Technologies && FindTechnology(db, name.s).Some? && id !in db.projects.rows ==>
            r == Reply(404, Message(DeveloperNotFound), db))
      && (r.status == 201 ==>
            var t := FindTechnology(db, name.s).value;
            && t in db.technologies.rows && db.technologies.rows[t].name == name.s
            && r.db.links.rows == db.links.rows[db.links.next := Link(id, t, today)]
            && r.db.links.next == db.links.next + 1
            && r.db.(links := db.links) == db
            && r.body == Joined(FirstProjectRow(r.db, id).value)
            && r.body.row.projectId == id && r.body.row.project == db.projects.rows[id])
    ensures r.status == 201 && Wf(db) ==> db.links.next !in db.links.rows
    ensures Wf(db) ==> Wf(r.db)
  {
    var body := FilterData(payload, TechnologyKeys);
    assert Get(body, "name") == Get(payload, "name");
    var name := Get(body, "name");
    if !(name.Str? && name.s in Technologies) then Reply(400, Message(AllowedTechnologies), db)
    else
      match FindTechnology(db, name.s)
      case None => Reply(500, ServerError(Other(NoTechnologyRow)), db)
      case Some(t) =>
        match InsertLink(db, id, t, today)
        case Err(e) =>
          if e == ForeignKeyViolation then Reply(404, Message(DeveloperNotFound), db)
          else Reply(500, ServerError(e), db)
        case Ok(w) =>
          Reply(201, if FirstProjectRow(w.db, id).Some? then Joined(FirstProjectRow(w.db, id).value) else Empty, w.db)
  }

  /** PATCH /projects/:id. The partial-update rule over the seven project
      keys: falsy values are dropped, an empty SET list is a 400 that changes
      nothing, and a developer_id naming no developer is not translated (500). */
  function Update(db: Db, id: int, payload: Obj): (r: Reply)
    ensures r.status in {200, 400, 500}
    ensures r.status != 200 ==> r.db == db
    ensures r.db.developers == db.developers && r.db.links == db.links
    ensures Wf(db) ==> Wf(r.db)
  {
    var body := UpdateFields(payload, ProjectKeys);
    match UpdateProject(db, id, body)
    case Ok(u) => Reply(200, if u.row.Some? then ProjectRow(id, u.row.value) else Empty, u.db)
    case Err(e) =>
      if e == EmptySetList then Reply(400, Message(RequiredProject), db)
      else Reply(500, ServerError(e), db)
  }

  /** DELETE /projects/:id. Deletes the project row and nothing else; its
      associations stay in place. */
  function Remove(db: Db, id: int): (r: Reply)
    ensures r.status == 204 && r.body == Empty
    ensures id !in r.db.projects.rows
    ensures forall p :: p in db.projects.rows && p != id ==> p in r.db.projects.rows && r.db.projects.rows[p] == db.projects.rows[p]
    ensures forall p :: p in r.db.projects.rows ==> p in db.projects.rows
    ensures r.db.projects.next == db.projects.next
    ensures r.db.(projects := db.projects) == db
    ensures Wf(db) ==> Wf(r.db)
  {
    Reply(204, Empty, db.(projects := Delete(db.projects, id)))
  }

  /** The association the removal lookup finds: one whose project still
      exists and whose technology has the name, whatever the project. */
  predicate NamedLink(db: Db, l: Link, name: string)
  {
    && l.projectId in db.projects.rows
    && l.technologyId in db.technologies.rows
    && db.technologies.rows[l.technologyId].name == name
  }

  /** DELETE /projects/:id/technologies/:name. A name outside the accept-list
      is a 404 listing the options; a name no association has (on any
      project) is a 404; otherwise the lowest-id association with that
      technology name, on whichever project, is deleted and nothing else. */
  function RemoveTechnology(db: Db, id: int, name: string): (r: Reply)
    ensures r.status in {204, 404}
    ensures r.status == 404 ==> r.db == db
    ensures r.db.(links := db.links) == db
    ensures name !in Technologies ==> r == Reply(404, Unsupported(NotSupported, AdvertisedOptions), db)
    ensures name in Technologies && Wf(db) && (forall k :: k in db.links.rows ==> !NamedLink(db, db.links.rows[k], name)) ==>
      r == Reply(404, Message(NotOnProject(name)), db)
    ensures name in Technologies && Wf(db) ==>
      forall k :: k in db.links.rows && NamedLink(db, db.links.rows[k], name)
                  && (forall j :: j in db.links.rows && j < k ==> !NamedLink(db, db.links.rows[j], name)) ==>
        r == Reply(204, Empty, db.(links := Delete(db.links, k)))
    ensures Wf(db) ==> Wf(r.db)
  {
    if name !in Technologies then Reply(404, Unsupported(NotSupported, AdvertisedOptions), db)
    else
      match FirstWhere(db.links, (l: Link) => NamedLink(db, l, name), 0)
      case None => Reply(404, Message(NotOnProject(name)), db)
      case Some(k) => Reply(204, Empty, db.(links := Delete(db.links, k)))
  }

  /** Every allow-listed project value is falsy. */
  predicate NoneTruthy(payload: Obj)
  {
    forall c :: c in ProjectKeys ==> !Truthy(Get(payload, c))
  }

  /** The stored project with the truthy payload values written over it
      (as text, in the text columns). */
  function Patched(p: Project, payload: Obj): Project
  {
    var dev := Get(payload, "developer_id");
    Project(
      if Truthy(Get(payload, "name")) then Text(Get(payload, "name")) else p.name,
      if Truthy(Get(payload, "description")) then Text(Get(payload, "description")) else p.description,
      if Truthy(Get(payload, "estimated_time")) then Text(Get(payload, "estimated_time")) else p.estimatedTime,
      if Truthy(Get(payload, "repository")) then Text(Get(payload, "repository")) else p.repository,
      if Truthy(Get(payload, "start_date")) then Get(payload, "start_date") else p.startDate,
      if Truthy(Get(payload, "end_date")) then Get(payload, "end_date") else p.endDate,
      if Truthy(dev) && dev.Num? then dev.n else p.developerId)
  }

  /** What the project UPDATE does with a SET list that follows the rule. */
  lemma ProjectSetList(db: Db, id: int, body: Obj, payload: Obj)
    requires ProjectShaped(body, payload)
    ensures var dev := Get(payload, "developer_id");
      UpdateProject(db, id, body) ==
        if NoneTruthy(payload) then Err(EmptySetList)
        else if Truthy(dev) && IdLiteral(dev).Err? then Err(IdLiteral(dev).error)
        else if id !in db.projects.rows then Ok(Updated(None, db))
        else if Truthy(dev) && dev.n !in db.developers.rows then Err(ForeignKeyViolation)
        else
          var p' := Patched(db.projects.rows[id], payload);
          Ok(Updated(Some(p'), db.(projects := db.projects.(rows := db.projects.rows[id := p']))))
  {
    if !NoneTruthy(payload) && id in db.projects.rows {
      TruthyNotNull(body, ProjectRequired);
    }
  }

  /** A SET list that follows the partial-update rule for PATCH /projects/:id. */
  predicate ProjectShaped(body: Obj, payload: Obj)
  {
    && Reflects(body, payload, "name") && Reflects(body, payload, "description")
    && Reflects(body, payload, "estimated_time") && Reflects(body, payload, "repository")
    && Reflects(body, payload, "start_date") && Reflects(body, payload, "end_date")
    && Reflects(body, payload, "developer_id")
    && OnlyColumns(body, ProjectColumns)
    && (body == [] <==> NoneTruthy(payload))
    && AllTruthy(body)
  }

  /** The SET list a payload yields for PATCH /projects/:id follows the rule. */
  lemma ProjectSetListReflects(payload: Obj)
    ensures ProjectShaped(UpdateFields(payload, ProjectKeys), payload)
  {
    var body := UpdateFields(payload, ProjectKeys);
    UpdateFieldsReflects(payload, ProjectKeys, "name");
    UpdateFieldsReflects(payload, ProjectKeys, "description");
    UpdateFieldsReflects(payload, ProjectKeys, "estimated_time");
    UpdateFieldsReflects(payload, ProjectKeys, "repository");
    UpdateFieldsReflects(payload, ProjectKeys, "start_date");
    UpdateFieldsReflects(payload, ProjectKeys, "end_date");
    UpdateFieldsReflects(payload, ProjectKeys, "developer_id");
    assert body == [] <==> NoneTruthy(payload);
  }

  /** PATCH /projects/:id with no truthy project value is a 400 that changes nothing. */
  lemma UpdateNeedsAField(db: Db, id: int, payload: Obj)
    requires NoneTruthy(payload)
    ensures Update(db, id, payload) == Reply(400, Message(RequiredProject), db)
  {
    ProjectSetListReflects(payload);
    ProjectSetList(db, id, UpdateFields(payload, ProjectKeys), payload);
  }

  /** Otherwise exactly the truthy project values are written over the row
      with the route id; falsy values leave the stored ones untouched. */
  lemma UpdateWritesTruthyFields(db: Db, id: int, payload: Obj)
    requires !NoneTruthy(payload)
    ensures var dev, r := Get(payload, "developer_id"), Update(db, id, payload);
      && (Truthy(dev) && IdLiteral(dev).Err? ==> r == Reply(500, ServerError(IdLiteral(dev).error), db))
      && ((Truthy(dev) ==> IdLiteral(dev).Ok?) && id !in db.projects.rows ==> r == Reply(200, Empty, db))
      && (Truthy(dev) && IdLiteral(dev).Ok? && id in db.projects.rows && dev.n !in db.developers.rows ==>
            r == Reply(500, ServerError(ForeignKeyViolation), db))
      && ((Truthy(dev) ==> IdLiteral(dev).Ok? && dev.n in db.developers.rows) && id in db.projects.rows ==>
            var p' := Patched(db.projects.rows[id], payload);
            r == Reply(200, ProjectRow(id, p'), db.(projects := db.projects.(rows := db.projects.rows[id := p']))))
  {
    ProjectSetListReflects(payload);
    ProjectSetList(db, id, UpdateFields(payload, ProjectKeys), payload);
  }

  /** The project already has an association. */
  predicate HasAssociation(db: Db, id: int)
  {
    exists k :: k in db.links.rows && db.links.rows[k].projectId == id
  }

  /** The 201 body of POST /projects/:id/technologies. When the project had
      an association already, the body is the project's first join row as it
      was BEFORE the insert, so it names an older technology; only for the
      project's first association does it name the technology just added. */
  lemma {:induction false} CreateTechnologyReportsFirstRow(db: Db, id: int, payload: Obj, today: string)
    requires Wf(db) && CreateTechnology(db, id, payload, today).status == 201
    ensures var r, name := CreateTechnology(db, id, payload, today), Get(payload, "name");
      && (HasAssociation(db, id) ==> r.body == Joined(FirstProjectRow(db, id).value))
      && (!HasAssociation(db, id) ==>
            && r.body.row.technologyId == FindTechnology(db, name.s)
            && r.body.row.technologyName == Some(name.s))
  {
    var r, name := CreateTechnology(db, id, payload, today), Get(payload, "name");
    var t := FindTechnology(db, name.s).value;
    var row := Link(id, t, today);
    var onProject := (l: Link) => l.projectId == id;
    FirstWhereInsert(db.links, row, onProject, 0);
    var before := FirstWhere(db.links, onProject, 0);
    if HasAssociation(db, id) {
      var k :| k in db.links.rows && db.links.rows[k].projectId == id;
      assert onProject(db.links.rows[k]);
      assert before.Some?;
    }
  }

  /** Adding a technology to a project and then removing it by name gives
      204. The association removed is the lowest-id one with that name on any
      project: the one just added only when no association with that name
      existed before, in which case the associations are back to what they
      were; otherwise the new one stays and the older one goes. */
  lemma AddThenRemoveTechnology(db: Db, id: int, payload: Obj, today: string)
    requires Wf(db) && CreateTechnology(db, id, payload, today).status == 201
    ensures var r, name := CreateTechnology(db, id, payload, today), Get(payload, "name");
      RemoveTechnology(r.db, id, name.s).status == 204
    ensures var r, name := CreateTechnology(db, id, payload, today), Get(payload, "name");
      (forall k :: k in db.links.rows ==> !NamedLink(db, db.links.rows[k], name.s)) ==>
        RemoveTechnology(r.db, id, name.s).db.links.rows == db.links.rows
    ensures var r, name := CreateTechnology(db, id, payload, today), Get(payload, "name");
      forall k :: k in db.links.rows && NamedLink(db, db.links.rows[k], name.s)
                  && (forall j :: j in db.links.rows && j < k ==> !NamedLink(db, db.links.rows[j], name.s)) ==>
        var after := RemoveTechnology(r.db, id, name.s).db;
        && after.links.rows == r.db.links.rows - {k}
        && db.links.next in after.links.rows
  {
    var r, name := CreateTechnology(db, id, payload, today), Get(payload, "name");
    var l := Link(id, FindTechnology(db, name.s).value, today);
    assert r.db == db.(links := Insert(db.links, l).1);
    if forall k :: k in db.links.rows ==> !NamedLink(db, db.links.rows[k], name.s) {
      RemoveAfterAddFresh(db, l, id, name.s);
    } else {
      var k := FirstNamedLink(db, name.s);
      RemoveAfterAddOlder(db, l, id, name.s, k);
    }
    forall k | k in db.links.rows && NamedLink(db, db.links.rows[k], name.s)
               && (forall j :: j in db.links.rows && j < k ==> !NamedLink(db, db.links.rows[j], name.s))
      ensures var after := RemoveTechnology(r.db, id, name.s).db;
        && after.links.rows == r.db.links.rows - {k}
        && db.links.next in after.links.rows
    {
      RemoveAfterAddOlder(db, l, id, name.s, k);
    }
  }

  /** The lowest id of an association with the name, when there is one. */
  lemma FirstNamedLink(db: Db, name: string) returns (k: int)
    requires Wf(db) && exists k :: k in db.links.rows && NamedLink(db, db.links.rows[k], name)
    ensures k in db.links.rows && NamedLink(db, db.links.rows[k], name)
    ensures forall j :: j in db.links.rows && j < k ==> !NamedLink(db, db.links.rows[j], name)
  {
    var found := FirstWhere(db.links, (l: Link) => NamedLink(db, l, name), 0);
    k := found.value;
  }

  /** Removing by name right after adding a named association, when no older
      association has the name: the new one goes and the associations are
      back to what they were. */
  lemma RemoveAfterAddFresh(db: Db, l: Link, id: int, name: string)
    requires Wf(db) && name in Technologies && NamedLink(db, l, name)
    requires forall k :: k in db.links.rows ==> !NamedLink(db, db.links.rows[k], name)
    ensures var db' := db.(links := Insert(db.links, l).1);
      && RemoveTechnology(db', id, name) == Reply(204, Empty, db'.(links := Delete(db'.links, db.links.next)))
      && Delete(db'.links, db.links.next).rows == db.links.rows
  {
    var db' := db.(links := Insert(db.links, l).1);
    var n := db.links.next;
    forall j | j in db'.links.rows && j < n
      ensures !NamedLink(db', db'.links.rows[j], name)
    {
      assert j in db.links.rows;
    }
    assert db'.links.rows[n] == l;
  }

  /** Removing by name right after adding a named association, when an older
      association has the name: the lowest-id older one goes, the new one stays. */
  lemma RemoveAfterAddOlder(db: Db, l: Link, id: int, name: string, k: int)
    requires Wf(db) && name in Technologies
    requires k in db.links.rows && NamedLink(db, db.links.rows[k], name)
    requires forall j :: j in db.links.rows && j < k ==> !NamedLink(db, db.links.rows[j], name)
    ensures var db' := db.(links := Insert(db.links, l).1);
      && RemoveTechnology(db', id, name) == Reply(204, Empty, db'.(links := Delete(db'.links, k)))
      && db.links.next in Delete(db'.links, k).rows
  {
    var db' := db.(links := Insert(db.links, l).1);
    assert db'.links.rows[k] == db.links.rows[k];
    forall j | j in db'.links.rows && j < k
      ensures !NamedLink(db', db'.links.rows[j], name)
    {
      assert j in db.links.rows;
    }
  }

  /** DELETE /projects/:id/technologies/:name does not depend on the route id:
      any two project ids give the same reply and the same store. */
  lemma RemoveTechnologyIgnoresProjectId(db: Db, id1: int, id2: int, name: string)
    ensures RemoveTechnology(db, id1, name) == RemoveTechnology(db, id2, name)
  {
  }

  /** Removing a technology from one project can delete another project's
      association: with project 1 holding no association and project 2
      holding React, a removal of React addressed to project 1 deletes
      project 2's association. */
  lemma RemoveTechnologyCrossesProjects(db: Db)
    requires Wf(db) && 1 in db.projects.rows && 2 in db.projects.rows
    requires db.technologies.rows == map[1 := Technology("React")]
    requires db.links.rows == map[1 := Link(2, 1, "2023-01-01")]
    ensures RemoveTechnology(db, 1, "React") == Reply(204, Empty, db.(links := Delete(db.links, 1)))
    ensures 1 !in RemoveTechnology(db, 1, "React").db.links.rows
  {
    assert NamedLink(db, db.links.rows[1], "React");
  }

  /** The unsupported-technology 404 advertises "JavaScript", a spelling both
      association handlers refuse: the accept-list spells it "Javascript". */
  lemma AdvertisedJavaScriptIsRefused(db: Db, id: int, today: string)
    ensures "JavaScript" in AdvertisedOptions && "JavaScript" !in Technologies
    ensures RemoveTechnology(db, id, "JavaScript") == Reply(404, Unsupported(NotSupported, AdvertisedOptions), db)
    ensures CreateTechnology(db, id, [Field("name", Str("JavaScript"))], today)
            == Reply(400, Message(AllowedTechnologies), db)
  {
    assert "JavaScript" == AdvertisedOptions[0];
  }
}

=== FILE: responses.dfy ===
/** What a handler sends back: a status code, a JSON body, and the store as
    the request left it. */
module Responses {
  import opened Wrappers
  import opened Payload
  import opened Store

  datatype Body =
    | Empty                                        // `send()`, or `json(undefined)`
    | Message(text: string)                        // `{ message }`
    | Unsupported(text: string, options: seq<string>) // `{ message, options }`
    | DeveloperRow(id: int, developer: Developer)
    | InfoRow(id: int, info: Info)
    | ProjectRow(id: int, project: Project)
    | Joined(row: JoinRow)
    | DeveloperView(id: int, developer: Developer, developerSince: Value, preferredOs: Option<Os>)
    | ServerError(error: DbError)                  // 500 with the raw error message

  datatype Reply = Reply(status: int, body: Body, db: Db)
}

=== FILE: store.dfy ===
/**
 * The relational store behind the handlers, as pure functions over
 * immutable tables. Each statement a handler issues is one function here.
 * The constraints the handlers rely on (NOT NULL, UNIQUE email, the foreign
 * keys, the os_types enum) are explicit checks that yield an error value,
 * in the order the database applies them: literals are parsed first, then
 * NOT NULL, then UNIQUE, then the foreign keys.
 */
module Store {
  import opened Wrappers
  import opened Payload

  /** The `os_types` enum. */
  datatype Os = Windows | Linux | MacOS

  /** A `developers` row; the id is its key in the table. */
  datatype Developer = Developer(name: Value, email: Value, infosId: Option<int>)

  /** A `developer_infos` row. */
  datatype Info = Info(developerSince: Value, preferredOs: Os)

  /** A `projects` row; `endDate` is the one nullable column. */
  datatype Project = Project(
    name: Value, description: Value, estimatedTime: Value, repository: Value,
    startDate: Value, endDate: Value, developerId: int)

  /** A pre-seeded `technologies` row. */
  datatype Technology = Technology(name: string)

  /** A `projects_technologies` row. */
  datatype Link = Link(projectId: int, technologyId: int, addedIn: string)

  /** A table: rows by id, and the serial counter that hands out the next id. */
  datatype Table<T> = Table(rows: map<int, T>, next: int)

  datatype Db = Db(
    developers: Table<Developer>,
    infos: Table<Info>,
    projects: Table<Project>,
    technologies: Table<Technology>,
    links: Table<Link>)

  /** What a failed statement reports. */
  datatype DbError =
    | NotNullViolation
    | UniqueViolation
    | EnumViolation
    | ForeignKeyViolation
    | EmptySetList          // `UPDATE t SET () = ROW()`: a syntax error
    | UnknownColumn
    | InvalidInteger
    | IntegerOutOfRange     // a numeral outside the 4-byte `integer` type
    | Other(reason: string) // a failure outside the store, such as a TypeError in the handler

  /** The row an INSERT ... RETURNING * produced, and the store after it. */
  datatype Written<T> = Written(id: int, row: T, db: Db)

  /** The row an UPDATE ... RETURNING * produced (none when no row had the id). */
  datatype Updated<T> = Updated(row: Option<T>, db: Db)

  /** Every id was handed out by the table's serial counter, which starts at 1. */
  predicate TableWf<T>(t: Table<T>)
  {
    1 <= t.next && forall id :: id in t.rows ==> 1 <= id < t.next
  }

  predicate Wf(db: Db)
  {
    && TableWf(db.developers)
    && TableWf(db.infos)
    && TableWf(db.projects)
    && TableWf(db.technologies)
    && TableWf(db.links)
  }

  /** INSERT with a serial id: the new id is fresh and only that row is added. */
  function Insert<T>(t: Table<T>, row: T): (r: (int, Table<T>))
    ensures r.1.rows == t.rows[r.0 := row]
    ensures TableWf(t) ==> r.0 !in t.rows && TableWf(r.1)
  {
    (t.next, Table(t.rows[t.next := row], t.next + 1))
  }

  /** DELETE ... WHERE id = $1. */
  function Delete<T>(t: Table<T>, id: int): Table<T>
  {
    t.(rows := t.rows - {id})
  }

  /** The lowest id at or above `from` whose row satisfies `p`: the first row
      a scan in id order returns. */
  function FirstWhere<T>(t: Table<T>, p: T -> bool, from: int): (r: Option<int>)
    ensures r.Some? ==> from <= r.value && r.value in t.rows && p(t.rows[r.value])
    ensures r.Some? ==> forall id :: from <= id < r.value && id in t.rows ==> !p(t.rows[id])
    ensures r.None? && TableWf(t) ==> forall id :: from <= id && id in t.rows ==> !p(t.rows[id])
    decreases t.next - from
  {
    if from >= t.next then None
    else if from in t.rows && p(t.rows[from]) then Some(from)
    else FirstWhere(t, p, from + 1)
  }

  /** The range of Postgres's 4-byte `integer` type, which every id and
      integer column has. */
  const IntegerMin := -0x8000_0000
  const IntegerMax := 0x7fff_ffff

  predicate IsInteger(n: int)
  {
    IntegerMin <= n <= IntegerMax
  }

  /** How an integer column reads a value: NULL, an id, or an error when the
      value is not a number or its numeral is out of the type's range. */
  function IdLiteral(v: Value): (r: Result<Option<int>, DbError>)
    ensures r.Ok? <==> IsNull(v) || (v.Num? && IsInteger(v.n))
    ensures r.Ok? && r.value.Some? ==> v == Num(r.value.value)
    ensures r.Ok? && r.value.None? ==> IsNull(v)
  {
    if IsNull(v) then Ok(None)
    else if !v.Num? then Err(InvalidInteger)
    else if !IsInteger(v.n) then Err(IntegerOutOfRange)
    else Ok(Some(v.n))
  }

  /** How the `os_types` enum reads a value: NULL, one of the three labels,
      or an enum error. pg-format quotes every non-null value, so numbers and
      booleans reach the enum as text and are rejected like any other label. */
  function OsLiteral(v: Value): Result<Option<Os>, DbError>
  {
    if IsNull(v) then Ok(None)
    else if v == Str("Windows") then Ok(Some(Windows))
    else if v == Str("Linux") then Ok(Some(Linux))
    else if v == Str("MacOS") then Ok(Some(MacOS))
    else Err(EnumViolation)
  }

  /** The number a string of decimal digits denotes. */
  function DigitsValue(ds: string): int
  {
    if ds == [] then 0
    else DigitsValue(ds[..|ds| - 1]) * 10 + DigitValue(ds[|ds| - 1])
  }

  function DigitValue(c: char): int
  {
    if '0' <= c <= '9' then c as int - '0' as int else 0
  }

  /** The decimal digits of a natural number, most significant first; they
      read back as the number. */
  function Digits(n: nat): (ds: string)
    ensures ds != [] && ds[0] != '-'
    ensures DigitsValue(ds) == n
    decreases n
  {
    var last := [('0' as int + n % 10) as char];
    if n < 10 then last
    else
      var ds := Digits(n / 10) + last;
      assert ds[..|ds| - 1] == Digits(n / 10);
      ds
  }

  /** `n.toString()` for a safe integer, below 2^53 in magnitude. */
  function Decimal(n: int): string
  {
    if n < 0 then "-" + Digits(-n) else Digits(n)
  }

  /** The number a decimal numeral denotes, optionally with a leading minus. */
  function DecimalValue(s: string): int
  {
    if s != [] && s[0] == '-' then -DigitsValue(s[1..]) else DigitsValue(s)
  }

  /** Reading back the numeral `Decimal` writes gives the number: distinct
      numbers are written as distinct texts. */
  lemma DecimalRoundTrip(n: int)
    ensures DecimalValue(Decimal(n)) == n
  {
    if n < 0 {
      var s := Decimal(n);
      assert s[1..] == Digits(-n);
    }
  }

  /** What a text column stores for a value: pg-format's `%L` writes
      `undefined` and `null` as NULL and every other value as a quoted
      literal, a number as its decimal numeral and a boolean as 't' or 'f'. */
  function Text(v: Value): (t: Value)
    ensures IsNull(t) <==> IsNull(v)
    ensures !IsNull(v) ==> t.Str?
    ensures v.Num? ==> DecimalValue(t.s) == v.n
    ensures v.Str? ==> t == v
  {
    match v
    case Num(n) => DecimalRoundTrip(n); Str(Decimal(n))
    case Bool(b) => Str(if b then "t" else "f")
    case _ => v
  }

  /** A nullable column stores NULL for both null and undefined. */
  function Nullable(v: Value): Value
  {
    if IsNull(v) then Null else v
  }

  /** The value an UPDATE leaves in `column`: the assigned one, or the old one. */
  function Assigned(cols: Obj, column: string, current: Value): Value
  {
    if column in Keys(cols) then Get(cols, column) else current
  }

  /** The same for a text column, which stores the assigned value's text. */
  function AssignedText(cols: Obj, column: string, current: Value): Value
  {
    if column in Keys(cols) then Text(Get(cols, column)) else current
  }

  /** Every key names a column of the table. */
  predicate OnlyColumns(cols: Obj, columns: seq<string>)
  {
    forall j :: j in Keys(cols) ==> j in columns
  }

  /** Some column in `required` would be NULL. */
  predicate SomeNull(cols: Obj, required: seq<string>)
  {
    exists c :: c in required && IsNull(Get(cols, c))
  }

  /** Some assigned column in `required` would be set to NULL. */
  predicate SomeAssignedNull(cols: Obj, required: seq<string>)
  {
    exists c :: c in required && c in Keys(cols) && IsNull(Get(cols, c))
  }

  /** A SET list of truthy values assigns NULL to no column. */
  lemma TruthyNotNull(cols: Obj, required: seq<string>)
    requires AllTruthy(cols)
    ensures !SomeAssignedNull(cols, required)
  {
  }

  const DeveloperColumns: seq<string> := ["name", "email", "developer_infos_id"]
  const InfoColumns: seq<string> := ["developer_since", "preferred_os"]
  const ProjectColumns: seq<string> :=
    ["name", "description", "estimated_time", "repository", "start_date", "end_date", "developer_id"]
  const ProjectRequired: seq<string> :=
    ["name", "description", "estimated_time", "repository", "start_date", "developer_id"]

  /** The UNIQUE constraint on `developers.email`, which compares the text
      the value is written as. */
  predicate EmailInUse(devs: map<int, Developer>, email: Value)
  {
    exists id :: id in devs && devs[id].email == Text(email)
  }

  /** No two developers share an email. */
  predicate UniqueEmails(devs: map<int, Developer>)
  {
    forall i, j :: i in devs && j in devs && devs[i].email == devs[j].email ==> i == j
  }

  /** Writing a row whose email no other row has keeps the emails unique. */
  lemma UniqueEmailsPut(devs: map<int, Developer>, id: int, d: Developer)
    requires UniqueEmails(devs)
    requires forall k :: k in devs && k != id ==> devs[k].email != d.email
    ensures UniqueEmails(devs[id := d])
  {
  }

  /** INSERT INTO developers (cols) VALUES (...) RETURNING *. */
  function InsertDeveloper(db: Db, cols: Obj): (r: Result<Written<Developer>, DbError>)
    ensures r.Ok? ==> r.value.db == db.(developers := Insert(db.developers, r.value.row).1)
    ensures r.Ok? ==> r.value.id == db.developers.next
  {
    if !OnlyColumns(cols, DeveloperColumns) then Err(UnknownColumn)
    else
      var name, email := Get(cols, "name"), Get(cols, "email");
      match IdLiteral(Get(cols, "developer_infos_id"))
      case Err(e) => Err(e)
      case Ok(infosId) =>
        if IsNull(name) || IsNull(email) then Err(NotNullViolation)
        else if EmailInUse(db.developers.rows, email) then Err(UniqueViolation)
        else if infosId.Some? && infosId.value !in db.infos.rows then Err(ForeignKeyViolation)
        else
          var row := Developer(Text(name), Text(email), infosId);
          var (id, t) := Insert(db.developers, row);
          Ok(Written(id, row, db.(developers := t)))
  }

  /** UPDATE developers SET (cols) = ROW(...) WHERE id = $1 RETURNING *. */
  function UpdateDeveloper(db: Db, id: int, cols: Obj): (r: Result<Updated<Developer>, DbError>)
    ensures r.Ok? && Wf(db) ==> Wf(r.value.db)
  {
    if cols == [] then Err(EmptySetList)
    else if !OnlyColumns(cols, DeveloperColumns) then Err(UnknownColumn)
    else
      match IdLiteral(Get(cols, "developer_infos_id"))
      case Err(e) => Err(e)
      case Ok(infosId) =>
        if id !in db.developers.rows then Ok(Updated(None, db))
        else
          var d := db.developers.rows[id];
          var d' := Developer(
            AssignedText(cols, "name", d.name),
            AssignedText(cols, "email", d.email),
            if "developer_infos_id" in Keys(cols) then infosId else d.infosId);
          if SomeAssignedNull(cols, ["name", "email"]) then Err(NotNullViolation)
          else if "email" in Keys(cols) && EmailInUse(db.developers.rows - {id}, Get(cols, "email")) then Err(UniqueViolation)
          else if "developer_infos_id" in Keys(cols) && infosId.Some? && infosId.value !in db.infos.rows then
            Err(ForeignKeyViolation)
          else
            Ok(Updated(Some(d'), db.(developers := db.developers.(rows := db.developers.rows[id := d']))))
  }

  /** UPDATE developers SET developer_infos_id = $1 WHERE id = $2 RETURNING *,
      with both values passed as parameters. */
  function SetDeveloperInfos(db: Db, id: int, infosId: int): (r: Result<Updated<Developer>, DbError>)
    ensures r.Ok? && Wf(db) ==> Wf(r.value.db)
  {
    if id !in db.developers.rows then Ok(Updated(None, db))
    else if infosId !in db.infos.rows then Err(ForeignKeyViolation)
    else
      var d' := db.developers.rows[id].(infosId := Some(infosId));
      Ok(Updated(Some(d'), db.(developers := db.developers.(rows := db.developers.rows[id := d']))))
  }

  /** INSERT INTO developer_infos (cols) VALUES (...) RETURNING *. */
  function InsertInfo(db: Db, cols: Obj): (r: Result<Written<Info>, DbError>)
    ensures r.Ok? ==> r.value.db == db.(infos := Insert(db.infos, r.value.row).1)
    ensures r.Ok? ==> r.value.id == db.infos.next
  {
    if !OnlyColumns(cols, InfoColumns) then Err(UnknownColumn)
    else
      match OsLiteral(Get(cols, "preferred_os"))
      case Err(e) => Err(e)
      case Ok(os) =>
        var since := Get(cols, "developer_since");
        if IsNull(since) || os.None? then Err(NotNullViolation)
        else
          var row := Info(since, os.value);
          var (id, t) := Insert(db.infos, row);
          Ok(Written(id, row, db.(infos := t)))
  }

  /** UPDATE developer_infos SET (cols) = ROW(...) WHERE id = $1 RETURNING *. */
  function UpdateInfo(db: Db, id: int, cols: Obj): (r: Result<Updated<Info>, DbError>)
    ensures r.Ok? && Wf(db) ==> Wf(r.value.db)
  {
    if cols == [] then Err(EmptySetList)
    else if !OnlyColumns(cols, InfoColumns) then Err(UnknownColumn)
    else
      match OsLiteral(Get(cols, "preferred_os"))
      case Err(e) => Err(e)
      case Ok(os) =>
        if id !in db.infos.rows then Ok(Updated(None, db))
        else if SomeAssignedNull(cols, InfoColumns) then Err(NotNullViolation)
        else
          var i := db.infos.rows[id];
          var i' := Info(
            Assigned(cols, "developer_since", i.developerSince),
            if os.Some? then os.value else i.preferredOs);
          Ok(Updated(Some(i'), db.(infos := db.infos.(rows := db.infos.rows[id := i']))))
  }

  /** INSERT INTO projects (cols) VALUES (...) RETURNING *. */
  function InsertProject(db: Db, cols: Obj): (r: Result<Written<Project>, DbError>)
    ensures r.Ok? ==> r.value.db == db.(projects := Insert(db.projects, r.value.row).1)
    ensures r.Ok? ==> r.value.id == db.projects.next
  {
    if !OnlyColumns(cols, ProjectColumns) then Err(UnknownColumn)
    else
      match IdLiteral(Get(cols, "developer_id"))
      case Err(e) => Err(e)
      case Ok(dev) =>
        if SomeNull(cols, ProjectRequired) then Err(NotNullViolation)
        else if dev.None? || dev.value !in db.developers.rows then Err(ForeignKeyViolation)
        else
          var row := Project(
            Text(Get(cols, "name")), Text(Get(cols, "description")), Text(Get(cols, "estimated_time")),
            Text(Get(cols, "repository")), Get(cols, "start_date"), Nullable(Get(cols, "end_date")),
            dev.value);
          var (id, t) := Insert(db.projects, row);
          Ok(Written(id, row, db.(projects := t)))
  }

  /** UPDATE projects SET (cols) = ROW(...) WHERE id = $1 RETURNING *. */
  function UpdateProject(db: Db, id: int, cols: Obj): (r: Result<Updated<Project>, DbError>)
    ensures r.Ok? ==> r.value.db.(projects := db.projects) == db
    ensures r.Ok? ==> r.value.db.projects.next == db.projects.next
    ensures r.Ok? ==> r.value.db.projects.rows.Keys == db.projects.rows.Keys
    ensures cols == [] ==> r == Err(EmptySetList)
    ensures r.Ok? && Wf(db) ==> Wf(r.value.db)
  {
    if cols == [] then Err(EmptySetList)
    else if !OnlyColumns(cols, ProjectColumns) then Err(UnknownColumn)
    else
      match IdLiteral(Get(cols, "developer_id"))
      case Err(e) => Err(e)
      case Ok(dev) =>
        if id !in db.projects.rows then Ok(Updated(None, db))
        else if SomeAssignedNull(cols, ProjectRequired) then Err(NotNullViolation)
        else if dev.Some? && dev.value !in db.developers.rows then Err(ForeignKeyViolation)
        else
          var p := db.projects.rows[id];
          var p' := Project(
            AssignedText(cols, "name", p.name),
            AssignedText(cols, "description", p.description),
            AssignedText(cols, "estimated_time", p.estimatedTime),
            AssignedText(cols, "repository", p.repository),
            Assigned(cols, "start_date", p.startDate),
            if "end_date" in Keys(cols) then Nullable(Get(cols, "end_date")) else p.endDate,
            if dev.Some? then dev.value else p.developerId);
          Ok(Updated(Some(p'), db.(projects := db.projects.(rows := db.projects.rows[id := p']))))
  }

  /** INSERT INTO projects_technologies (projects_id, technologies_id, added_in) VALUES (...). */
  function InsertLink(db: Db, projectId: int, technologyId: int, today: string): (r: Result<Written<Link>, DbError>)
    ensures r.Ok? ==> r.value.db == db.(links := Insert(db.links, r.value.row).1)
    ensures r.Ok? ==> r.value.id == db.links.next
  {
    if projectId !in db.projects.rows || technologyId !in db.technologies.rows then Err(ForeignKeyViolation)
    else
      var row := Link(projectId, technologyId, today);
      var (id, t) := Insert(db.links, row);
      Ok(Written(id, row, db.(links := t)))
  }

  /** SELECT * FROM technologies WHERE name = $1, first row. */
  function FindTechnology(db: Db, name: string): Option<int>
  {
    FirstWhere(db.technologies, (t: Technology) => t.name == name, 0)
  }

  /** One row of `projects LEFT JOIN projects_technologies LEFT JOIN technologies`. */
  datatype JoinRow = JoinRow(
    technologyId: Option<int>, technologyName: Option<string>, projectId: int, project: Project)

  /** The first row of that join for one project: the project with its
      lowest-id association, or with NULL technology columns when it has none
      (or its technology is gone); nothing when the project does not exist. */
  function FirstProjectRow(db: Db, projectId: int): Option<JoinRow>
  {
    if projectId !in db.projects.rows then None
    else
      var p := db.projects.rows[projectId];
      match FirstWhere(db.links, (l: Link) => l.projectId == projectId, 0)
      case None => Some(JoinRow(None, None, projectId, p))
      case Some(k) =>
        var t := db.links.rows[k].technologyId;
        if t in db.technologies.rows then
          Some(JoinRow(Some(t), Some(db.technologies.rows[t].name), projectId, p))
        else
          Some(JoinRow(None, None, projectId, p))
  }

  /** Appending a row with a fresh id leaves an earlier first match alone,
      and becomes the first match only when there was none. */
  lemma {:induction false} FirstWhereInsert<T>(t: Table<T>, row: T, p: T -> bool, from: int)
    requires TableWf(t) && from <= t.next
    ensures FirstWhere(Insert(t, row).1, p, from) ==
      if FirstWhere(t, p, from).Some? then FirstWhere(t, p, from)
      else if p(row) then Some(t.next) else None
    decreases t.next - from
  {
    var t' := Insert(t, row).1;
    if from == t.next {
      assert from !in t.rows;
      assert FirstWhere(t', p, from + 1) == None;
    } else {
      assert from in t'.rows <==> from in t.rows;
      assert from in t.rows ==> t'.rows[from] == t.rows[from];
      FirstWhereInsert(t, row, p, from + 1);
    }
  }
}

=== FILE: validations.dfy ===
/**
 * `filterData` and the partial-update rule built on it: a request body is
 * projected onto a fixed allow-list of keys, and for updates every key
 * whose value is falsy is then deleted.
 */
module Validations {
  import opened Payload

  /** `keys.map((key) => ({ [key]: payload[key] }))`. */
  function Singletons(payload: Obj, keys: seq<string>): seq<Obj>
  {
    if keys == [] then []
    else [[Field(keys[0], Get(payload, keys[0]))]] + Singletons(payload, keys[1..])
  }

  /** `objs.reduce((previous, current) => ({ ...previous, ...current }), acc)`. */
  function Reduce(objs: seq<Obj>, acc: Obj): Obj
  {
    if objs == [] then acc else Reduce(objs[1..], Spread(acc, objs[0]))
  }

  /** `filterData(payload, keys)`: the payload projected onto the allow-list.
      Every allow-listed key is present, holding the payload's value (so
      `undefined` when the payload lacks it); no other key is present; and
      for an allow-list without repetitions the keys come in its order. */
  function FilterData(payload: Obj, keys: seq<string>): (r: Obj)
    ensures forall j :: j in Keys(r) <==> j in keys
    ensures forall j :: j in keys ==> Get(r, j) == Get(payload, j)
    ensures NoDuplicates(Keys(r))
    ensures NoDuplicates(keys) ==> Keys(r) == keys
  {
    ReduceKeys(payload, keys, []);
    ReduceValues(payload, keys, []);
    ReduceOrder(payload, keys, []);
    Reduce(Singletons(payload, keys), [])
  }

  /** One step of the fold: the first singleton is written into the accumulator. */
  lemma ReduceStep(payload: Obj, keys: seq<string>, acc: Obj)
    requires keys != []
    ensures Reduce(Singletons(payload, keys), acc)
         == Reduce(Singletons(payload, keys[1..]), Put(acc, keys[0], Get(payload, keys[0])))
  {
    var objs := Singletons(payload, keys);
    assert objs[0] == [Field(keys[0], Get(payload, keys[0]))];
    assert objs[1..] == Singletons(payload, keys[1..]);
    assert Spread(acc, objs[0]) == Put(acc, keys[0], Get(payload, keys[0]));
  }

  /** The fold keeps keys distinct and adds exactly the allow-listed keys. */
  lemma {:induction false} ReduceKeys(payload: Obj, keys: seq<string>, acc: Obj)
    requires NoDuplicates(Keys(acc))
    ensures var r := Reduce(Singletons(payload, keys), acc);
      && NoDuplicates(Keys(r))
      && (forall j :: j in Keys(r) <==> j in Keys(acc) || j in keys)
    decreases |keys|
  {
    if keys != [] {
      var k := keys[0];
      var acc' := Put(acc, k, Get(payload, k));
      ReduceStep(payload, keys, acc);
      PutKeepsDistinct(acc, k, Get(payload, k));
      ReduceKeys(payload, keys[1..], acc');
      var r := Reduce(Singletons(payload, keys), acc);
      assert forall j :: j in Keys(acc') <==> j in Keys(acc) || j == k;
      forall j
        ensures j in Keys(r) <==> j in Keys(acc) || j in keys
      {
        assert j in keys <==> j == k || j in keys[1..];
      }
    }
  }

  /** After the fold every allow-listed key holds the payload's value and
      every other key is as the accumulator had it. */
  lemma {:induction false} ReduceValues(payload: Obj, keys: seq<string>, acc: Obj)
    ensures var r := Reduce(Singletons(payload, keys), acc);
      && (forall j :: j in keys ==> Get(r, j) == Get(payload, j))
      && (forall j :: j !in keys ==> Get(r, j) == Get(acc, j))
    decreases |keys|
  {
    if keys != [] {
      var k := keys[0];
      var acc' := Put(acc, k, Get(payload, k));
      ReduceStep(payload, keys, acc);
      ReduceValues(payload, keys[1..], acc');
      var r := Reduce(Singletons(payload, keys), acc);
      forall j | j in keys
        ensures Get(r, j) == Get(payload, j)
      {
        assert j == k || j in keys[1..];
      }
      forall j | j !in keys
        ensures Get(r, j) == Get(acc, j)
      {
        assert j != k && j !in keys[1..];
      }
    }
  }

  /** For distinct keys that are new to the accumulator, the fold appends
      them in allow-list order. */
  lemma {:induction false} ReduceOrder(payload: Obj, keys: seq<string>, acc: Obj)
    ensures NoDuplicates(keys) && (forall j :: j in keys ==> j !in Keys(acc)) ==>
      Keys(Reduce(Singletons(payload, keys), acc)) == Keys(acc) + keys
    decreases |keys|
  {
    if keys == [] {
      assert Keys(acc) + keys == Keys(acc);
    } else if NoDuplicates(keys) && (forall j :: j in keys ==> j !in Keys(acc)) {
      var k, rest := keys[0], keys[1..];
      var acc' := Put(acc, k, Get(payload, k));
      assert k in keys;
      assert Keys(acc') == Keys(acc) + [k];
      assert k !in rest && NoDuplicates(rest);
      forall j | j in rest
        ensures j !in Keys(acc')
      {
        assert j in keys;
      }
      ReduceOrder(payload, rest, acc');
      ReduceStep(payload, keys, acc);
      AppendAssoc(Keys(acc), [k], rest);
      assert [k] + rest == keys;
    }
  }

  lemma AppendAssoc<T>(a: seq<T>, b: seq<T>, c: seq<T>)
    ensures a + b + c == a + (b + c)
  {
  }

  /** Payloads that agree on the allow-listed keys filter to the same object:
      nothing outside the allow-list influences the result. */
  lemma FilterDataOnlyReadsAllowList(p: Obj, q: Obj, keys: seq<string>)
    requires forall j :: j in keys ==> Get(p, j) == Get(q, j)
    ensures FilterData(p, keys) == FilterData(q, keys)
  {
    SingletonsAgree(p, q, keys);
  }

  lemma {:induction false} SingletonsAgree(p: Obj, q: Obj, keys: seq<string>)
    requires forall j :: j in keys ==> Get(p, j) == Get(q, j)
    ensures Singletons(p, keys) == Singletons(q, keys)
    decreases |keys|
  {
    if keys != [] {
      assert keys[0] in keys;
      assert forall j :: j in keys[1..] ==> j in keys;
      SingletonsAgree(p, q, keys[1..]);
    }
  }

  /** With an allow-list free of repetitions the result is exactly the list
      of `key: payload[key]` properties in allow-list order. */
  lemma FilterDataShape(payload: Obj, keys: seq<string>)
    requires NoDuplicates(keys)
    ensures |FilterData(payload, keys)| == |keys|
    ensures forall i :: 0 <= i < |keys| ==>
      FilterData(payload, keys)[i] == Field(keys[i], Get(payload, keys[i]))
  {
    var r := FilterData(payload, keys);
    KeysAt(r);
    forall i | 0 <= i < |keys|
      ensures r[i] == Field(keys[i], Get(payload, keys[i]))
    {
      assert Keys(r)[i] == keys[i];
      assert keys[i] in keys;
      GetField(r, r[i]);
    }
  }

  /** Filtering an already filtered payload with the same keys changes nothing. */
  lemma FilterDataIdempotent(payload: Obj, keys: seq<string>)
    ensures FilterData(FilterData(payload, keys), keys) == FilterData(payload, keys)
  {
    FilterDataOnlyReadsAllowList(FilterData(payload, keys), payload, keys);
  }

  /** `a` is `b` with some elements left out, the rest in their order. */
  predicate IsSubsequence<T(==)>(a: seq<T>, b: seq<T>)
  {
    a == [] || (b != [] && ((a[0] == b[0] && IsSubsequence(a[1..], b[1..])) || IsSubsequence(a, b[1..])))
  }

  /** How many properties of `o` have truthy values. */
  function TruthyCount(o: Obj): nat
  {
    if o == [] then 0 else (if Truthy(o[0].value) then 1 else 0) + TruthyCount(o[1..])
  }

  /** The `delete body[key]` loop: keeps exactly the truthy properties, in
      order. A subsequence of truthy properties as long as the count of
      truthy properties can only be that one. */
  function DropFalsy(o: Obj): (r: Obj)
    ensures IsSubsequence(r, o) && |r| == TruthyCount(o)
    ensures forall f :: f in r ==> f in o && Truthy(f.value)
    ensures forall f :: f in o && Truthy(f.value) ==> f in r
    ensures forall j :: j in Keys(r) ==> j in Keys(o)
    ensures NoDuplicates(Keys(o)) ==> NoDuplicates(Keys(r))
    ensures NoDuplicates(Keys(o)) ==>
      forall j :: Get(r, j) == if Truthy(Get(o, j)) then Get(o, j) else Undefined
  {
    if o == [] then []
    else
      var rest := DropFalsy(o[1..]);
      assert Keys(o) == [o[0].key] + Keys(o[1..]);
      if Truthy(o[0].value) then
        assert Keys([o[0]] + rest) == [o[0].key] + Keys(rest);
        assert ([o[0]] + rest)[1..] == rest;
        [o[0]] + rest
      else
        assert rest != [] ==> rest[0] in rest;
        rest
  }

  /** A subsequence of truthy properties is no longer than the count of
      truthy properties. */
  lemma {:induction false} TruthySubsequenceBound(r: Obj, o: Obj)
    requires IsSubsequence(r, o) && forall f :: f in r ==> Truthy(f.value)
    ensures |r| <= TruthyCount(o)
    decreases |o|
  {
    if r != [] {
      assert r[0] in r;
      if r[0] == o[0] && IsSubsequence(r[1..], o[1..]) {
        forall f | f in r[1..] ensures Truthy(f.value) { assert f in r; }
        TruthySubsequenceBound(r[1..], o[1..]);
      } else {
        TruthySubsequenceBound(r, o[1..]);
      }
    }
  }

  /** DropFalsy is the only order-keeping selection of all the truthy
      properties: any subsequence of truthy properties, as many as there are,
      is its result. */
  lemma {:induction false} DropFalsyUnique(o: Obj, r: Obj)
    requires IsSubsequence(r, o) && |r| == TruthyCount(o)
    requires forall f :: f in r ==> Truthy(f.value)
    ensures r == DropFalsy(o)
    decreases |o|
  {
    if r == [] {
      assert |DropFalsy(o)| == 0;
    } else {
      assert r[0] in r;
      forall f | f in r[1..] ensures Truthy(f.value) { assert f in r; }
      if Truthy(o[0].value) {
        if !(r[0] == o[0] && IsSubsequence(r[1..], o[1..])) {
          TruthySubsequenceBound(r, o[1..]);
          assert false;
        }
        DropFalsyUnique(o[1..], r[1..]);
        assert r == [r[0]] + r[1..];
      } else {
        DropFalsyUnique(o[1..], r);
      }
    }
  }

  /** The SET list of a partial update: the payload filtered onto the allow-list,
      minus every key whose value is falsy. A key is in it exactly when it is
      allow-listed and the payload's value for it is truthy, and then it holds
      that value; it is empty exactly when no allow-listed value is truthy. */
  function UpdateFields(payload: Obj, keys: seq<string>): (r: Obj)
    ensures NoDuplicates(Keys(r))
    ensures forall j :: j in Keys(r) <==> j in keys && Truthy(Get(payload, j))
    ensures forall j :: j in Keys(r) ==> Get(r, j) == Get(payload, j)
    ensures r == [] <==> forall j :: j in keys ==> !Truthy(Get(payload, j))
  {
    var body := FilterData(payload, keys);
    UpdateFieldsFacts(payload, keys, body);
    DropFalsy(body)
  }

  lemma UpdateFieldsFacts(payload: Obj, keys: seq<string>, body: Obj)
    requires body == FilterData(payload, keys)
    ensures var r := DropFalsy(body);
      && (forall j :: j in Keys(r) <==> j in keys && Truthy(Get(payload, j)))
      && (forall j :: j in Keys(r) ==> Get(r, j) == Get(payload, j))
      && (r == [] <==> forall j :: j in keys ==> !Truthy(Get(payload, j)))
  {
    var r := DropFalsy(body);
    forall j | j in Keys(r)
      ensures j in keys && Truthy(Get(payload, j)) && Get(r, j) == Get(payload, j)
    {
      GetPresent(r, j);
    }
    forall j | j in keys && Truthy(Get(payload, j))
      ensures j in Keys(r)
    {
      GetPresent(body, j);
      var f :| f in body && f.key == j && Get(body, j) == f.value;
      KeysCover(r);
    }
    if r != [] {
      KeysCover(r);
      assert r[0] in r;
    }
  }

  /** The value the SET list holds for `k`: the payload's value when it is
      truthy, `undefined` (absent) otherwise. */
  function Kept(payload: Obj, k: string): Value
  {
    if Truthy(Get(payload, k)) then Get(payload, k) else Undefined
  }

  /** The SET list `body` treats the allow-listed key `k` as the rule says. */
  predicate Reflects(body: Obj, payload: Obj, k: string)
  {
    && (k in Keys(body) <==> Truthy(Get(payload, k)))
    && Get(body, k) == Kept(payload, k)
  }

  lemma UpdateFieldsReflects(payload: Obj, keys: seq<string>, k: string)
    requires k in keys
    ensures Reflects(UpdateFields(payload, keys), payload, k)
  {
  }
}

=== FILE: wrappers.dfy ===
/** Failure-compatible helper datatypes shared by the store and the handlers. */
module Wrappers {

  /** An optional value: a nullable column, or a lookup that may find nothing. */
  datatype Option<+T> = None | Some(value: T)

  /** The outcome of a statement: a value, or the error the store raised. */
  datatype Result<+T, +E> = Ok(value: T) | Err(error: E)
}
